=== FILE: README.md ===
# Djassa Coach backend core in Dafny

This project models the bookkeeping core of the Djassa Coach backend, a
FastAPI service for small shops in Côte d'Ivoire. A shop keeps products with
a stock, records sales, expenses and customer debts, and talks to an
assistant, "Cécile". From a chat message the assistant can record a sale,
an expense or a debt by itself. The model covers:

- **The ledger.** `Bookkeeping.Ledger` is a class whose fields are the
  shop's tables, held as sequences with the row id as index. Its methods are
  the handlers that change them:
  - stock adjustment;
  - sale creation and deletion;
  - expenses with their frequent-amount buckets;
  - debts and debt payments;
  - the voice-input endpoint with its monthly quota.

  `Ledger.Valid()` is the invariant every method keeps:
  - stock ≥ 0;
  - each sale totals quantity × unit price;
  - each debt has 0 ≤ remaining ≤ initial and is settled exactly at 0;
  - at most one frequent-expense row per (category, bucket).

  Sales and sale deletions also conserve, per product, stock on hand plus
  units sold by live sales.
- **The login lockout** (`Lockout`). A pure step function `LoginStep`
  specifies the class method `Boutique.Login`.
- **The chat auto-record pipeline** (`AutoRecord`). Steps in order:
  - the abuse guard over the last five minutes of chat logs;
  - the confidence gate;
  - the checks on the extracted details, with Python truthiness,
    `isinstance` and `int()` truncation (the `JsonValues` module);
  - product resolution by lower-cased substring;
  - the guarded mutation;
  - composition of the answer: the model's decoded answer with either the
    recorded transaction or one piece of feedback folded in, plus the
    weekly advice.

  `AutoRecord.ChatbotMessage` runs a whole turn against a `Ledger`.
- **The language-model text handling** (`Gemini`):
  - cleaning of code fences;
  - extraction of the first-`{`-to-last-`}` JSON candidate;
  - the product catalogue cut to 30 or 20 entries;
  - Cécile's history block, the last 10 entries;
  - what each call returns when the client is missing or the call raises.

  The model call and `json.loads` are inputs: an `LlmCall` value and a
  decoder function.
- **Request validation** (`Schemas`): the signup validators, the objective
  validators and the `Field` bounds of the request models.
- **`format_fcfa`** (`Fcfa`). It groups digits by three with spaces and
  appends " FCFA". `Fcfa.ParseFcfa` is its inverse.

Times are integer seconds. The start of the month and of the week are
inputs, and so are the week's sales and expenses. Text is `seq<char>`.
Lower-casing changes ASCII capitals only, as SQLite's `lower()` and `LIKE`
do.

## Model

| member | source | states |
|---|---|---|
| JsonValues.Trunc | Backend/main.py:1264-1265 | `int()` on a number truncates toward zero: the result is within one of the value, on the zero side |
| Text.Strip | Backend/gemini_service.py:99 | `str.strip()` keeps a slice of the text that neither starts nor ends with white space, and everything cut away around it is white space |
| Text.StripKeeps | Backend/gemini_service.py:99 | text with no surrounding white space is unchanged by `strip()` |
| Text.Lower | Backend/main.py:1269 | SQLite `lower()`: same length, each ASCII capital replaced by its small letter |
| Text.Take | Backend/gemini_service.py:20 | `s[:n]` is the first `min(n, len(s))` items of `s` |
| Text.Last | Backend/gemini_service.py:228 | `s[-n:]` is the last `min(n, len(s))` items of `s` |
| Numerals.Digits | Backend/gemini_service.py:179 | the decimal digits of a natural number, with no leading zero |
| Numerals.DigitsRoundTrip | Backend/gemini_service.py:179 | reading the decimal digits of `n` back gives `n` |
| Numerals.Decimal | Backend/main.py:1289 | `str(n)`: non-empty, starting with '-' exactly for a negative `n`; the digits after the sign read back as the magnitude |
| Fcfa.FormatFcfa | Backend/gemini_service.py:178-180 | `format_fcfa` ends with " FCFA" and starts with '-' exactly for a negative amount |
| Fcfa.GroupedUngroups | Backend/main.py:43-45 | removing the group separators of a formatted amount gives back its digits |
| Fcfa.GroupedShape | Backend/main.py:43-45 | groups of three digits from the right, each separated by exactly one space |
| Fcfa.FormatParses | Backend/main.py:43-45 | `format_fcfa` loses nothing: parsing its output gives the amount back, for every integer |
| Fcfa.FormatExample | Backend/gemini_service.py:203 | 125000 formats as "125 000 FCFA" |
| Schemas.TelephoneTrailingNewline | Backend/schemas.py:12-16 | the pattern as written accepts "0701234567\n", which is not a '0' followed by 8 or 9 digits |
| Schemas.SignupErrors | Backend/schemas.py:6-28 | no error exactly when the shop name has 3 to 100 characters, the telephone has the corrected format (see Findings), the PIN is 4 digits and the confirmation equals it; each field is reported exactly when its own check fails |
| Schemas.CheckObjective | Backend/schemas.py:120-131 | an objective is accepted exactly when its type is one of the three periods, its target is at least 10000 and its end is after its start; each 422 reason is reported |
| Schemas.FieldErrors | Backend/schemas.py:52-165 | for each request model, no field error exactly when every `Field` bound holds |
| Gemini.Unfence | Backend/gemini_service.py:100-105 | the fences are cut from the ends only: the result is a slice of the text at most 13 characters shorter, and text with no fence at either end is unchanged |
| Gemini.StripFences | Backend/gemini_service.py:99-105 | the cleaned answer is never longer than the stripped answer |
| Gemini.ClosingFenceUnfenced | Backend/gemini_service.py:104-105 | a text with no opening fence comes out of the fence steps with exactly its closing "```" removed |
| Gemini.NoFenceKept | Backend/gemini_service.py:100-105 | text that neither starts nor ends with a backquote passes the fence steps unchanged |
| Gemini.JsonFenceRemoved | Backend/gemini_service.py:99-105 | a body in a "```json" fence comes out of the cleaning unchanged |
| Gemini.BareFenceRemoved | Backend/gemini_service.py:99-105 | a body in a bare "```" fence comes out of the cleaning unchanged |
| Gemini.UnfencedKept | Backend/gemini_service.py:99-105 | an answer with no fence and no surrounding white space is left alone |
| Gemini.FirstIndex | Backend/gemini_service.py:108 | the position of the first occurrence of a character, or none when absent |
| Gemini.LastIndex | Backend/gemini_service.py:108 | the position of the last occurrence of a character, or none when absent |
| Gemini.ExtractJsonObject | Backend/gemini_service.py:107-112 | a candidate exists exactly when some '}' follows some '{'; it runs from the first '{' to the last '}' and is a slice of the text |
| Gemini.DetectIntent | Backend/gemini_service.py:14-18 | never fails: no client or a raised call gives no transaction; any other intent is the decoded candidate |
| Gemini.NonJsonAnswerHasNoTransaction | Backend/gemini_service.py:107-112 | an answer without '{' never yields a transaction |
| Gemini.ParseVoiceInput | Backend/gemini_service.py:116-176 | no client or a raised call gives `success: False`; otherwise an answer that decodes is returned as decoded and one that does not gives `success: False` |
| Gemini.CatalogLine | Backend/gemini_service.py:124 | a product line is the product's name followed by " (", its price in decimal and " FCFA)", and nothing else |
| Gemini.CatalogLines | Backend/gemini_service.py:124 | one line per product, in the products' order |
| Gemini.PromptCatalog | Backend/gemini_service.py:124 | the product list is empty exactly when there are no products or the limit is 0 |
| Gemini.CatalogShowsFirst | Backend/gemini_service.py:20 | each of the first `limit` products appears in the prompt's product list |
| Gemini.CatalogIgnoresRest | Backend/gemini_service.py:124 | products after the first `limit` do not change the prompt's product list |
| Gemini.HistoryTextStep | Backend/gemini_service.py:228-230 | one more message adds exactly its labelled line at the end |
| Gemini.HistoryTextAppend | Backend/gemini_service.py:228-230 | the history block of two runs of messages is the two blocks one after the other |
| Gemini.FormatHistory | Backend/gemini_service.py:224-230 | the `+=` loop writes one labelled line for each of the last 10 entries, in order; a missing history is empty |
| Gemini.HistoryKeepsLastTen | Backend/gemini_service.py:228 | entries older than the last ten never reach the prompt |
| Gemini.CecileReply | Backend/gemini_service.py:215-256 | success exactly when a client is configured and the call answered; then the response is the stripped text; otherwise `response` is None and an error is given |
| Bookkeeping.Bucket | Backend/main.py:503-505 | the bucket is a multiple of 500, at least 500, and the 500-wide band holding the amount when the amount is at least 500 |
| Bookkeeping.FindRow | Backend/main.py:507-511 | `.first()` on (categorie, bucket): the first matching row, or none when no row matches |
| Bookkeeping.UpsertCountsOnce | Backend/main.py:513-522 | one expense adds exactly one use to the frequent-expense table |
| Bookkeeping.UpsertKeepsRows | Backend/main.py:513-522 | after an expense its row exists, no other row changes, and rows stay unique per (categorie, bucket) |
| Bookkeeping.TotalUsageUpdate | Backend/main.py:514 | changing one row's count changes the total by the difference |
| Bookkeeping.Page | Backend/main.py:363-366 | SQLite's `OFFSET`/`LIMIT`: a slice of the rows after the skipped ones, at most `limit` long for a non-negative limit, all remaining rows for a negative one |
| Bookkeeping.HasNextPageMeansMoreRows | Backend/main.py:382 | the corrected flag holds exactly when a row lies beyond the page returned, for any integers |
| Bookkeeping.HasNextOnNaturals | Backend/main.py:382 | for non-negative `offset` and `limit`, the listings' `has_next` is the corrected flag |
| Bookkeeping.HasNextNegativeLimit | Backend/main.py:357-382 | as written, `limit=-1` over five rows lists them all and still sets `has_next` |
| Bookkeeping.HasNextNegativeOffset | Backend/main.py:357-382 | as written, `offset=-3, limit=5` over five rows lists them all and still sets `has_next` |
| Bookkeeping.ChatQuota | Backend/main.py:837 | 20 messages a month on the 'gratuit' plan, 100 on any other |
| Bookkeeping.VoiceQuota | Backend/main.py:738 | the shop's `voice_input_quota`, 50 when absent |
| Bookkeeping.CheckQuota | Backend/main.py:845-851 | refused exactly when the count reaches the quota; otherwise `quota - count - 1` left, never negative |
| Bookkeeping.QuotaCountsDown | Backend/main.py:914 | each allowed request leaves one fewer; the request after the last allowed one is refused |
| Bookkeeping.CountSince | Backend/main.py:740-743 | the monthly count never exceeds the number of log rows |
| Bookkeeping.CountSinceAppend | Backend/main.py:958-961 | a new log row adds one to the month's count when stamped in the month, nothing otherwise |
| Bookkeeping.CountSinceNone | Backend/main.py:740-743 | rows all stamped before the month count zero |
| Bookkeeping.CountSinceAll | Backend/main.py:740-743 | rows all stamped in the month all count |
| Bookkeeping.CountSinceIgnoresOlder | Backend/main.py:958-961 | rows of earlier months do not change the month's count |
| Bookkeeping.ActiveIds | Backend/main.py:748-754 | exactly the active, non-deleted products, in table order |
| Bookkeeping.FirstExactMatch | Backend/main.py:769-774 | the loop finds the first product whose lower-cased name equals the lower-cased name heard, or reports that none does |
| Bookkeeping.MatchActive | Backend/main.py:748-774 | the product offered is the first active, non-deleted product whose lower-cased name is the lower-cased name heard; when none is offered, no such product exists |
| Bookkeeping.SoldUpdate | Backend/main.py:445-449 | soft-deleting a sale lowers the units sold of its product by its quantity and leaves other products alone |
| Bookkeeping.SoldAppend | Backend/main.py:405-417 | a new sale adds its quantity to the units sold of its product only |
| Bookkeeping.Ledger.CreateProduct | Backend/main.py:273-303 | an absent stock or alert threshold takes its default, 0 and 5; then 422 on a bad field; 409 when a live product has the name; otherwise one active product appended |
| Bookkeeping.Ledger.DeleteProduct | Backend/main.py:331-354 | 404 unless live; otherwise the product is soft-deleted and deactivated, nothing else changes |
| Bookkeeping.Ledger.UpdateStock | Backend/main.py:305-329 | 404 unless live; 400 and no change when the stock would go negative; otherwise only that stock moves by the adjustment |
| Bookkeeping.Ledger.CreateSale | Backend/main.py:385-428 | 422, 404, 400 as the source orders them; on success one sale at quantity × current price, that product's stock falls by the quantity, and stock plus units sold is unchanged for every product |
| Bookkeeping.Ledger.DeleteSale | Backend/main.py:430-456 | 404 for a missing or deleted sale, so stock comes back once; otherwise the sale is soft-deleted and its quantity restored; stock plus units sold is unchanged |
| Bookkeeping.Ledger.AddExpense | Backend/main.py:1313-1320 | the automatic expense appends its row and touches nothing else |
| Bookkeeping.Ledger.CountUse | Backend/main.py:507-522 | the (categorie, bucket) row gains one use or is created with one, nothing else changes, and the invariant holds |
| Bookkeeping.Ledger.CreateExpense | Backend/main.py:487-529 | 422 on a bad field; otherwise the expense row plus the bucket upsert, one more use in total |
| Bookkeeping.Ledger.CreateDebt | Backend/main.py:643-663 | 422 on a bad field; otherwise a debt in progress with remaining equal to initial |
| Bookkeeping.Ledger.PayDebt | Backend/main.py:689-728 | 422, 404, and 400 for an over-payment, each changing nothing; success exactly for a positive payment no larger than what a live debt still owes; then remaining falls by exactly the payment, initial is unchanged, 'soldee' exactly at 0, and one payment is recorded |
| Bookkeeping.Ledger.ParseVoice | Backend/main.py:730-783 | 422; 403 at the monthly quota with no log; a `success` the Boolean column rejects fails with 500 and no log; otherwise one voice log; success exactly when none of these applies and the name heard is not a non-text value while some product is active; a product is matched only for a truthy success and name, and it is the first active product with the same lower-cased name; quantity, unit price and confidence are passed through; `quota_restant` is `quota - count - 1` |
| Bookkeeping.Ledger.LogChat | Backend/main.py:1388-1397 | one chat log line is appended and no other table changes |
| Lockout.LoginStep | Backend/main.py:110-124 | locked exactly while `locked_until > now`, and then nothing changes; a wrong PIN counts one more failure and locks for 15 minutes from the third; a right PIN clears both |
| Lockout.ThreeWrongPinsLock | Backend/main.py:113-118 | three wrong PINs from a clean state lock the shop until 15 minutes after the third |
| Lockout.LockedRefusesEverything | Backend/main.py:110-111 | while locked even the right PIN is refused, and no failure is counted |
| Lockout.ExpiredLockRelocksAtOnce | Backend/main.py:113-116 | failures are cleared only by a right PIN, so after a lock runs out one wrong PIN locks again |
| Lockout.WrongRunCounts | Backend/main.py:114 | successive wrong PINs below the threshold count one each and leave the lock as it was |
| Lockout.Boutique.constructor | Backend/models.py:19-20 | a new shop has no failures and no lock |
| Lockout.Boutique.Login | Backend/main.py:110-124 | the stored failure count and lock change exactly as `LoginStep` says |
| AutoRecord.LangOf | Backend/main.py:1089 | English exactly for "en" |
| AutoRecord.RecentAutoCount | Backend/main.py:1232-1237 | the count of recent confirmation logs never exceeds the number of logs |
| AutoRecord.RecentAutoCountAppend | Backend/main.py:1232-1237 | a logged confirmation inside the window raises the count by one |
| AutoRecord.RecentAutoCountSkips | Backend/main.py:1232-1237 | a log older than five minutes, or one whose answer has no marker, leaves the count unchanged |
| AutoRecord.GateOf | Backend/main.py:1255 | open exactly for a truthy `has_transaction` with a numeric confidence ≥ 0.8; a non-numeric confidence raises `TypeError` |
| AutoRecord.ResolveProduct | Backend/main.py:1266-1271 | the first active, non-deleted product whose lower-cased name contains the lower-cased name given, or none |
| AutoRecord.SaleDecision | Backend/main.py:1259-1304 | product name first, then quantity, then resolution, then stock: each failure has its own feedback; a commit has `int(quantite)` ≥ 1, the resolved product and enough stock |
| AutoRecord.ExpenseDecision | Backend/main.py:1306-1335 | feedback exactly when the amount is not ≥ 100; a commit has `int(montant)` ≥ 100, the category or "Autre", the description cut to 500; a bad category is silent |
| AutoRecord.DebtDecision | Backend/main.py:1337-1367 | client name first, then amount ≥ 500, each with its feedback; a commit has the full client name and `int(montant)` ≥ 500 |
| AutoRecord.Decide | Backend/main.py:1231-1367 | nothing is committed unless recording is on, fewer than 10 confirmations were logged in 5 minutes, and the intent is confident; at the cap only "too many" is returned |
| AutoRecord.CapStopsRecording | Backend/main.py:1239-1240 | with ten recent confirmations the turn is "too many", whatever the intent |
| AutoRecord.OutcomeOf | Backend/main.py:1285-1367 | a commit gives a recorded descriptor with the confirmation text; a feedback decision gives its text |
| AutoRecord.MarkerInside | Backend/main.py:1236 | a lower-case marker anywhere in an answer is found by the case-insensitive `LIKE` |
| AutoRecord.ConfirmationCounted | Backend/main.py:1236 | a confirmation built on a message that starts with its marker is one the guard counts |
| AutoRecord.SaleMessageQuotes | Backend/main.py:1289 | a sale confirmation names the product and quotes the total |
| AutoRecord.ExpenseMessageQuotes | Backend/main.py:1326 | an expense confirmation quotes the amount and names the category |
| AutoRecord.DebtMessageQuotes | Backend/main.py:1356 | a debt confirmation names the client and quotes the amount owed |
| AutoRecord.FeedbackNamesProduct | Backend/main.py:1298-1300 | the stock and not-found feedback name the product, and the stock feedback quotes the stock left |
| AutoRecord.AdviceQuotesAmounts | Backend/main.py:1381 | the advice quotes the week's expenses and the week's sales |
| AutoRecord.ConfirmationIsCounted | Backend/main.py:1285-1296 | every confirmation text contains "enregistrée:" or "recorded:" as the guard's `LIKE` reads it |
| AutoRecord.RecordedTurnCounts | Backend/main.py:1386-1397 | the log line of a turn that recorded a transaction counts against the guard for five minutes |
| AutoRecord.Compose | Backend/main.py:1369-1384 | a recorded transaction replaces the response and the answer's own `transaction_recorded`; otherwise that key passes through as the model gave it, so feedback can sit beside it; feedback follows the response after "\n\n💡 " or is the whole response; advice is generated only when the week's expenses exceed its sales and none was given |
| AutoRecord.ReadReply | Backend/main.py:1210-1226 | without a brace-delimited object the cleaned text is the response; otherwise the decoder's verdict |
| AutoRecord.AppliedConserves | Backend/main.py:1273-1357 | an applied mutation keeps stock on hand plus units sold for every product |
| AutoRecord.Apply | Backend/main.py:1273-1357 | the sale and its stock decrement together, or the expense row, or the debt row with the name cut to 100, and nothing else |
| AutoRecord.FinishTurn | Backend/main.py:1273-1397 | the committed mutation is applied, the answer is the reply composed with the decision's outcome, and one successful log line holds its response |
| AutoRecord.AnswerTurn | Backend/main.py:1182-1435 | every path logs exactly one line; an answer exactly when the client is configured, the call answered with readable JSON and the decision raised nothing; otherwise no ledger row is written and the logged failure text and the apology are the path's own: "API non configurée", the exception text, "Erreur JSON: " and the decoder error, or the `TypeError` text |
| AutoRecord.ChatbotMessage | Backend/main.py:946-1435 | success exactly for a message of 1 to 1000 characters; the quota answer exactly when the month's count reaches the quota, and nothing is written then; otherwise one log line, and an answer exactly when the turn reaches one; ledger rows change only for a committed decision |

## Left out

- The web layer is not modelled: routing, authentication tokens, sessions, the rate limiter, CORS, static files and the launcher.
- The audit log (`log_audit`) is not modelled, and neither are the `ip_address` and `last_login_*` columns.
- Multi-shop scoping is not modelled: the ledger holds a single shop, so the `boutique_id` filters are implicit.
- The login lookup by telephone is left out, and so is its 401 for an unknown shop. `verify_pin` (bcrypt) is a boolean input.
- Dates and calendars are left out. Month and week starts, the week's sales and expenses, and dashboard and report figures are inputs or not modelled.
- The prompts, the context strings and the model calls are inputs: `LlmCall` values and the decoded intent. `json.loads` is a decoder function.
- Concurrency is not modelled. That covers the race between the stock check and its decrement, and SQLite's transaction behaviour.
- Floating point is not modelled. Numbers in a model answer are exact reals, and infinities and NaN are left out.
- Text.Lower: SQLite lowers only ASCII letters, which the model follows. Python's `.lower()` on the extracted name also lowers non-ASCII letters; the model lowers that side by ASCII only too.
- Bookkeeping.FirstExactMatch: both names are lowered by ASCII only, while `str.lower()` in the voice endpoint also lowers non-ASCII letters. So "Éponge" matches "éponge" in the source but not in the model.
- Bookkeeping.MatchActive: the same ASCII-only lowering as FirstExactMatch, with the same "Éponge"/"éponge" gap.
- Schemas.SignupErrors: it checks the telephone with the corrected format, not the pattern as written (see Findings). The as-written pattern is `Schemas.TelephonePatternAsWritten`.
- AutoRecord.Resolves: `LIKE '%name%'` is modelled as a plain substring test. A `%` or `_` in the extracted name would act as a wildcard in the source.
- Numerals.AllDigits: `str.isdigit()` also accepts non-ASCII digits, which the model does not.
- Intents.Details: a `details` value that is not an object, or a list or object nested inside it, is left out. So is a `response` that is not text. All of these raise in the source.
- The fields `categorie` of a product, `mode_paiement`, `date_echeance` and reminders are not modelled.
- Deleting an expense or a debt, expense categories and the listings' row contents are not modelled. Only their paging and `has_next` are.
- Bookkeeping.Ledger.ParseVoice: the VoiceLog's stored transcript, JSON and error text are not kept, so a failure to store the answer's `error` is left out. Pydantic's coercion of the response fields is left out.
- Gemini.ParseVoiceInput and Gemini.DetectIntent: the `error` texts of the failure answers are dropped. Callers read only `success` and `has_transaction`.
- Gemini.ParseVoiceInput: the decoder yields an object or nothing. A top-level JSON answer that is not an object (a list, a number) is left out; in the source `result.get` then raises in the voice endpoint, which answers 500 without writing a voice log.
- The `suggestions` lists of the chatbot answers are left out: the fixed lists of the quota, no-JSON and error answers, and the list a decoded answer carries, which is returned unchanged. Neither the ledger nor the logs depend on them.
- AutoRecord.Compose: of the keys a decoded answer carries, only `response`, `transaction_recorded` and `proactive_advice` are modelled; the others are returned unchanged by the source.

## Findings

| source | as written | input that shows it | evidently intended | confidence | as-written member | corrected member |
|---|---|---|---|---|---|---|
| Backend/schemas.py:14 | `re.match(r'^0[0-9]{8,9}$', v)`, where Python's `$` also matches before a final newline | "0701234567\n" is accepted as a telephone | a '0' followed by exactly 8 or 9 digits and nothing else (`fullmatch` or `\Z`) | not executed | Schemas.TelephoneTrailingNewline | Schemas.ValidTelephone |
| Backend/main.py:382 | `has_next = offset + limit < total`, with `offset` and `limit` taken unchecked from the query string | five live sales with `limit=-1`: SQLite reads a negative limit as no limit and lists all five, yet `has_next` is true; `offset=-3, limit=5` lists all five too, with the same flag | a next page exactly when rows lie beyond the page returned (or negative parameters refused) | not executed | Bookkeeping.HasNextNegativeLimit | Bookkeeping.HasNextPageMeansMoreRows |

=== FILE: autorecord.dfy ===
/** The chatbot's automatic recording of transactions (`chatbot_message` in
    Backend/main.py): an abuse guard over recent confirmations, a confidence
    gate on the detected intent, the checks on the extracted details for a
    sale, an expense or a debt, the mutation itself, and the composition of
    the answer: the model's decoded answer with the recorded transaction or
    one piece of feedback folded in, plus the weekly spending advice. */
module AutoRecord {
  import opened Wrappers
  import opened JsonValues
  import opened Text
  import opened Numerals
  import opened Fcfa
  import opened Schemas
  import opened Intents
  import opened Gemini
  import opened Bookkeeping

  datatype Lang = Fr | En

  /** `is_english = data.language == "en"`; anything else is French. */
  function LangOf(language: string): (l: Lang)
    ensures l == En <==> language == "en"
  {
    if language == "en" then En else Fr
  }

  const AutoWindowSeconds: int := 5 * 60
  const AutoCap: nat := 10
  const MinConfidence: real := 0.8

  // ------------------------------------------------------------- the guard

  const MarkerFr: string := "enregistrée:"
  const MarkerEn: string := "recorded:"

  /** `bot_response LIKE '%enregistrée:%' OR LIKE '%recorded:%'`: LIKE
      ignores the case of ASCII letters only. */
  predicate IsAutoMarker(response: string) {
    Contains(Lower(response), MarkerFr) || Contains(Lower(response), MarkerEn)
  }

  predicate CountsAsRecent(log: ChatLog, now: int) {
    log.at >= now - AutoWindowSeconds && IsAutoMarker(log.botResponse)
  }

  /** Chat logs of the last five minutes whose answer reads as a recorded
      transaction. */
  function RecentAutoCount(logs: seq<ChatLog>, now: int): (n: nat)
    ensures n <= |logs|
  {
    if logs == [] then 0
    else RecentAutoCount(logs[..|logs| - 1], now) + (if CountsAsRecent(logs[|logs| - 1], now) then 1 else 0)
  }

  /** A logged confirmation counts once against every later turn within five
      minutes of it. */
  lemma RecentAutoCountAppend(logs: seq<ChatLog>, log: ChatLog, now: int)
    requires IsAutoMarker(log.botResponse) && log.at >= now - AutoWindowSeconds
    ensures RecentAutoCount(logs + [log], now) == RecentAutoCount(logs, now) + 1
  {
    assert (logs + [log])[..|logs|] == logs;
  }

  /** A log that is older than five minutes, or whose answer carries no
      marker, leaves the count unchanged. */
  lemma RecentAutoCountSkips(logs: seq<ChatLog>, log: ChatLog, now: int)
    requires !CountsAsRecent(log, now)
    ensures RecentAutoCount(logs + [log], now) == RecentAutoCount(logs, now)
  {
    assert (logs + [log])[..|logs|] == logs;
  }

  // -------------------------------------------------------------- the gate

  datatype Gate = Open | Shut | TypeError(message: string)

  function PyTypeName(j: Json): string {
    match j
    case JNull => "NoneType"
    case JStr(_) => "str"
    case JNum(_) => "float"
    case JBool(_) => "bool"
  }

  /** `intent.get("has_transaction") and intent.get("confidence", 0) >= 0.8`:
      the comparison is only made for a truthy `has_transaction`, and raises
      when the confidence is not a number. */
  function GateOf(intent: Intent): (g: Gate)
    ensures g == Open <==> Truthy(intent.hasTransaction) && IsNumber(intent.confidence) && NumValue(intent.confidence) >= MinConfidence
    ensures g.TypeError? <==> Truthy(intent.hasTransaction) && !IsNumber(intent.confidence)
  {
    if !Truthy(intent.hasTransaction) then Shut
    else if !IsNumber(intent.confidence) then
      TypeError("'>=' not supported between instances of '" + PyTypeName(intent.confidence) + "' and 'float'")
    else if NumValue(intent.confidence) >= MinConfidence then Open
    else Shut
  }

  // ------------------------------------------------------ detail checks

  /** `x and isinstance(x, str) and len(x) >= 2` */
  predicate NameOk(j: Json) {
    Truthy(j) && j.JStr? && |j.s| >= 2
  }

  /** `x and isinstance(x, (int, float)) and x >= min` */
  predicate AmountOk(j: Json, min: real) {
    Truthy(j) && IsNumber(j) && NumValue(j) >= min
  }

  /** The product a sale names: active, not deleted, and whose lower-cased
      name contains the lower-cased name given (`LIKE '%name%'`). */
  predicate Resolves(p: Product, name: string) {
    p.active && !p.deleted && Contains(Lower(p.nom), Lower(name))
  }

  function ResolveFrom(ps: seq<Product>, name: string, k: nat): (r: Option<nat>)
    requires k <= |ps|
    ensures r.Some? ==>
      && k <= r.value < |ps| && Resolves(ps[r.value], name)
      && forall j :: k <= j < r.value ==> !Resolves(ps[j], name)
    ensures r.None? ==> forall j :: k <= j < |ps| ==> !Resolves(ps[j], name)
    decreases |ps| - k
  {
    if k == |ps| then None
    else if Resolves(ps[k], name) then Some(k)
    else ResolveFrom(ps, name, k + 1)
  }

  /** `.first()` over the products the name resolves to, in table order. */
  function ResolveProduct(ps: seq<Product>, name: string): (r: Option<nat>)
    ensures r.Some? ==>
      && r.value < |ps| && Resolves(ps[r.value], name)
      && forall j :: 0 <= j < r.value ==> !Resolves(ps[j], name)
    ensures r.None? ==> forall j :: 0 <= j < |ps| ==> !Resolves(ps[j], name)
  {
    ResolveFrom(ps, name, 0)
  }

  datatype Feedback =
    | TooMany
    | StockShort(nom: string, stock: int)
    | NotFound(name: string)
    | NeedQuantity
    | NeedProduct
    | NeedExpenseAmount
    | NeedDebtAmount
    | NeedClientName

  /** The rows an automatic transaction writes. A debt keeps the client name
      as extracted; only the stored row cuts it to 100 characters. */
  datatype Mutation =
    | SaleOf(produitId: nat, quantite: int)
    | ExpenseOf(categorie: string, montant: int, description: string)
    | DebtOf(client: string, montant: int)

  datatype Decision = Commit(m: Mutation) | Advise(f: Feedback) | Skip | Raise(error: string)

  /** A confident sale: a product name, then a quantity, then a product
      that resolves, then enough stock. */
  function SaleDecision(ps: seq<Product>, d: Details): (r: Decision)
    ensures r.Commit? || r.Advise?
    ensures !NameOk(d.produitNom) <==> r == Advise(NeedProduct)
    ensures NameOk(d.produitNom) && !AmountOk(d.quantite, 1.0) <==> r == Advise(NeedQuantity)
    ensures r.Commit? ==>
      && r.m.SaleOf? && NameOk(d.produitNom) && AmountOk(d.quantite, 1.0)
      && r.m.quantite == Trunc(NumValue(d.quantite)) && r.m.quantite >= 1
      && ResolveProduct(ps, d.produitNom.s) == Some(r.m.produitId)
      && ps[r.m.produitId].stock >= r.m.quantite
    ensures r.Advise? && r.f.NotFound? <==>
      NameOk(d.produitNom) && AmountOk(d.quantite, 1.0) && ResolveProduct(ps, d.produitNom.s).None?
    ensures r.Advise? && r.f.NotFound? ==> r.f.name == d.produitNom.s
    ensures r.Advise? && r.f.StockShort? <==>
      && NameOk(d.produitNom) && AmountOk(d.quantite, 1.0)
      && ResolveProduct(ps, d.produitNom.s).Some?
      && ps[ResolveProduct(ps, d.produitNom.s).value].stock < Trunc(NumValue(d.quantite))
    ensures r.Advise? && r.f.StockShort? ==>
      var p := ps[ResolveProduct(ps, d.produitNom.s).value];
      r.f == StockShort(p.nom, p.stock)
  {
    if !NameOk(d.produitNom) then Advise(NeedProduct)
    else if !AmountOk(d.quantite, 1.0) then Advise(NeedQuantity)
    else
      var quantite := Trunc(NumValue(d.quantite));
      match ResolveProduct(ps, d.produitNom.s)
      case None => Advise(NotFound(d.produitNom.s))
      case Some(i) =>
        if ps[i].stock >= quantite then Commit(SaleOf(i, quantite))
        else Advise(StockShort(ps[i].nom, ps[i].stock))
  }

  /** A confident expense: an amount of at least 100, then a category that
      defaults to "Autre" and must be text of two characters or more; a bad
      category records nothing and says nothing. */
  function ExpenseDecision(d: Details): (r: Decision)
    ensures r.Commit? || r.Advise? || r.Skip?
    ensures r.Advise? <==> !AmountOk(d.montantTotal, 100.0)
    ensures r.Advise? ==> r.f == NeedExpenseAmount
    ensures r.Commit? ==>
      && r.m.ExpenseOf?
      && r.m.montant == Trunc(NumValue(d.montantTotal)) && r.m.montant >= 100
      && |r.m.categorie| >= 2
      && (if Truthy(d.categorie) then d.categorie == JStr(r.m.categorie) else r.m.categorie == "Autre")
      && r.m.description == (if Truthy(d.description) && d.description.JStr? then Take(d.description.s, 500) else "")
      && |r.m.description| <= 500
    ensures r.Skip? <==> AmountOk(d.montantTotal, 100.0) && Truthy(d.categorie) && !NameOk(d.categorie)
  {
    if !AmountOk(d.montantTotal, 100.0) then Advise(NeedExpenseAmount)
    else
      var montant := Trunc(NumValue(d.montantTotal));
      var categorie := if Truthy(d.categorie) then d.categorie else JStr("Autre");
      var description := if Truthy(d.description) then d.description else JStr("");
      if categorie.JStr? && |categorie.s| >= 2 then
        Commit(ExpenseOf(categorie.s, montant, if description.JStr? then Take(description.s, 500) else ""))
      else Skip
  }

  /** A confident debt: a client name, then an amount of at least 500. */
  function DebtDecision(d: Details): (r: Decision)
    ensures r.Commit? || r.Advise?
    ensures !NameOk(d.clientNom) <==> r == Advise(NeedClientName)
    ensures NameOk(d.clientNom) && !AmountOk(d.montantTotal, 500.0) <==> r == Advise(NeedDebtAmount)
    ensures r.Commit? ==>
      && r.m.DebtOf? && NameOk(d.clientNom) && r.m.client == d.clientNom.s
      && r.m.montant == Trunc(NumValue(d.montantTotal)) && r.m.montant >= 500
  {
    if !NameOk(d.clientNom) then Advise(NeedClientName)
    else if !AmountOk(d.montantTotal, 500.0) then Advise(NeedDebtAmount)
    else Commit(DebtOf(d.clientNom.s, Trunc(NumValue(d.montantTotal))))
  }

  /** What the guards ahead of each write ensure: a sale of a live product
      with stock for it, a debt with a client name and at least 500. */
  predicate Applicable(ps: seq<Product>, m: Mutation) {
    && (m.SaleOf? ==> LiveProduct(ps, m.produitId) && m.quantite >= 1 && ps[m.produitId].stock >= m.quantite)
    && (m.DebtOf? ==> |m.client| >= 2 && m.montant >= 500)
  }

  /** What one chatbot turn does with the detected intent. Nothing is written
      unless recording is on, fewer than ten confirmations were logged in the
      last five minutes, and the intent is confident; at the cap the only
      effect is the "too many" feedback. */
  function Decide(ps: seq<Product>, recentAuto: nat, enabled: bool, intent: Intent): (r: Decision)
    ensures r.Commit? ==>
      enabled && recentAuto < AutoCap && Truthy(intent.hasTransaction)
      && IsNumber(intent.confidence) && NumValue(intent.confidence) >= MinConfidence
    ensures !enabled ==> r == Skip
    ensures enabled && recentAuto >= AutoCap <==> r == Advise(TooMany)
    ensures r.Raise? <==> enabled && recentAuto < AutoCap && GateOf(intent).TypeError?
    ensures r.Commit? && r.m.SaleOf? ==>
      && intent.transactionType == JStr("vente")
      && SaleDecision(ps, intent.details) == r
      && r.m.produitId < |ps| && ps[r.m.produitId].active && !ps[r.m.produitId].deleted
    ensures r.Commit? && r.m.ExpenseOf? ==> intent.transactionType == JStr("depense") && ExpenseDecision(intent.details) == r
    ensures r.Commit? && r.m.DebtOf? ==> intent.transactionType == JStr("dette") && DebtDecision(intent.details) == r
    ensures r.Commit? ==> Applicable(ps, r.m)
  {
    if !enabled then Skip
    else if recentAuto >= AutoCap then Advise(TooMany)
    else match GateOf(intent)
      case Shut => Skip
      case TypeError(message) => Raise(message)
      case Open =>
        if intent.transactionType == JStr("vente") then SaleDecision(ps, intent.details)
        else if intent.transactionType == JStr("depense") then ExpenseDecision(intent.details)
        else if intent.transactionType == JStr("dette") then DebtDecision(intent.details)
        else Skip
  }

  /** At the cap nothing is extracted, whatever the model said. */
  lemma CapStopsRecording(ps: seq<Product>, logs: seq<ChatLog>, now: int, intent: Intent)
    requires RecentAutoCount(logs, now) >= AutoCap
    ensures Decide(ps, RecentAutoCount(logs, now), true, intent) == Advise(TooMany)
  {
  }

  // ------------------------------------------------------------ the texts

  datatype TxKind = VenteTx | DepenseTx | DetteTx

  function Marker(lang: Lang): string {
    if lang == Fr then MarkerFr else MarkerEn
  }

  /** The word before the marker in a confirmation. */
  function HeadWord(lang: Lang, kind: TxKind): string {
    match (lang, kind)
    case (Fr, VenteTx) => "Vente "
    case (Fr, DepenseTx) => "Dépense "
    case (Fr, DetteTx) => "Dette "
    case (En, VenteTx) => "Sale "
    case (En, DepenseTx) => "Expense "
    case (En, DetteTx) => "Debt "
  }

  /** `tx_msg` for a sale: "Vente enregistrée: 3x Savon = 1 500 FCFA". */
  function SaleMessage(lang: Lang, quantite: int, nom: string, montant: int): string {
    HeadWord(lang, VenteTx) + Marker(lang) + (" " + Decimal(quantite) + "x " + nom + " = " + FormatFcfa(montant))
  }

  /** `tx_msg` for an expense: "Dépense enregistrée: 2 000 FCFA (Transport)". */
  function ExpenseMessage(lang: Lang, montant: int, categorie: string): string {
    HeadWord(lang, DepenseTx) + Marker(lang) + (" " + FormatFcfa(montant) + " (" + categorie + ")")
  }

  /** `tx_msg` for a debt: "Dette enregistrée: Awa doit 5 000 FCFA". */
  function DebtMessage(lang: Lang, client: string, montant: int): string {
    HeadWord(lang, DetteTx) + Marker(lang) + (" " + client + (if lang == Fr then " doit " else " owes ") + FormatFcfa(montant))
  }

  /** A sale confirmation names the product and quotes the total. */
  lemma SaleMessageQuotes(lang: Lang, quantite: int, nom: string, montant: int)
    ensures Contains(SaleMessage(lang, quantite, nom, montant), nom)
    ensures Contains(SaleMessage(lang, quantite, nom, montant), FormatFcfa(montant))
  {
    var head := HeadWord(lang, VenteTx) + Marker(lang);
    var named := " " + Decimal(quantite) + "x " + nom;
    var tail := named + " = " + FormatFcfa(montant);
    ContainsRight(head, tail);
    ContainsLeft(named + " = ", FormatFcfa(montant));
    ContainsLeft(named, " = ");
    ContainsTrans(tail, named + " = ", named);
    ContainsRight(" " + Decimal(quantite) + "x ", nom);
    ContainsTrans(tail, named, nom);
    ContainsTrans(SaleMessage(lang, quantite, nom, montant), tail, nom);
    ContainsRight(named + " = ", FormatFcfa(montant));
    ContainsTrans(SaleMessage(lang, quantite, nom, montant), tail, FormatFcfa(montant));
  }

  /** An expense confirmation quotes the amount and names the category. */
  lemma ExpenseMessageQuotes(lang: Lang, montant: int, categorie: string)
    ensures Contains(ExpenseMessage(lang, montant, categorie), FormatFcfa(montant))
    ensures Contains(ExpenseMessage(lang, montant, categorie), categorie)
  {
    var head := HeadWord(lang, DepenseTx) + Marker(lang);
    var quoted := " " + FormatFcfa(montant);
    var named := quoted + " (" + categorie;
    var tail := named + ")";
    ContainsRight(head, tail);
    ContainsLeft(named, ")");
    ContainsTrans(ExpenseMessage(lang, montant, categorie), tail, named);
    ContainsRight(quoted + " (", categorie);
    ContainsTrans(ExpenseMessage(lang, montant, categorie), named, categorie);
    ContainsLeft(quoted, " (");
    ContainsLeft(quoted + " (", categorie);
    ContainsTrans(named, quoted + " (", quoted);
    ContainsRight(" ", FormatFcfa(montant));
    ContainsTrans(named, quoted, FormatFcfa(montant));
    ContainsTrans(ExpenseMessage(lang, montant, categorie), named, FormatFcfa(montant));
  }

  /** A debt confirmation names the client and quotes the amount owed. */
  lemma DebtMessageQuotes(lang: Lang, client: string, montant: int)
    ensures Contains(DebtMessage(lang, client, montant), client)
    ensures Contains(DebtMessage(lang, client, montant), FormatFcfa(montant))
  {
    var head := HeadWord(lang, DetteTx) + Marker(lang);
    var owes := if lang == Fr then " doit " else " owes ";
    var named := " " + client + owes;
    var tail := named + FormatFcfa(montant);
    ContainsRight(head, tail);
    ContainsLeft(named, FormatFcfa(montant));
    ContainsLeft(" " + client, owes);
    ContainsTrans(tail, named, " " + client);
    ContainsRight(" ", client);
    ContainsTrans(tail, " " + client, client);
    ContainsTrans(DebtMessage(lang, client, montant), tail, client);
    ContainsRight(named, FormatFcfa(montant));
    ContainsTrans(DebtMessage(lang, client, montant), tail, FormatFcfa(montant));
  }

  function Emoji(kind: TxKind): string {
    match kind
    case VenteTx => "\U{1F4AA}"
    case DepenseTx => "\U{1F4DD}"
    case DetteTx => "\U{1F4CB}"
  }

  /** The answer that replaces the model's reply once a transaction is
      recorded. */
  function Confirmation(lang: Lang, kind: TxKind, message: string): string {
    (if lang == Fr then "C'est noté ! " else "Got it! ") + message + " " + Emoji(kind)
  }

  function FeedbackText(f: Feedback, lang: Lang): string {
    match f
    case TooMany =>
      if lang == Fr then "Trop de transactions automatiques récentes. Utilisez les formulaires pour continuer."
      else "Too many recent automatic transactions. Please use the forms to continue."
    case StockShort(nom, stock) =>
      if lang == Fr then "Stock insuffisant pour " + nom + " (" + Decimal(stock) + " disponible). Ajoutez du stock d'abord."
      else "Insufficient stock for " + nom + " (" + Decimal(stock) + " available). Add stock first."
    case NotFound(name) =>
      if lang == Fr then "Produit '" + name + "' non trouvé. Ajoutez-le dans le stock d'abord."
      else "Product '" + name + "' not found. Add it to stock first."
    case NeedQuantity =>
      if lang == Fr then "Précisez la quantité (ex: '2 sacs de riz')."
      else "Specify the quantity (e.g., '2 bags of rice')."
    case NeedProduct =>
      if lang == Fr then "Précisez le produit (ex: 'vendu 3 savons')."
      else "Specify the product (e.g., 'sold 3 soaps')."
    case NeedExpenseAmount =>
      if lang == Fr then "Précisez le montant de la dépense (minimum 100 FCFA)."
      else "Specify the expense amount (minimum 100 FCFA)."
    case NeedDebtAmount =>
      if lang == Fr then "Précisez le montant de la dette (minimum 500 FCFA)."
      else "Specify the debt amount (minimum 500 FCFA)."
    case NeedClientName =>
      if lang == Fr then "Précisez le nom du client."
      else "Specify the client's name."
  }

  /** The stock and not-found feedback name the product concerned, and the
      stock feedback quotes the stock left. */
  lemma FeedbackNamesProduct(f: Feedback, lang: Lang)
    ensures f.StockShort? ==>
      Contains(FeedbackText(f, lang), f.nom) && Contains(FeedbackText(f, lang), Decimal(f.stock))
    ensures f.NotFound? ==> Contains(FeedbackText(f, lang), f.name)
  {
    match f
    case StockShort(nom, stock) =>
      if lang == Fr {
        ContainsSecondAndFourth("Stock insuffisant pour ", nom, " (", Decimal(stock), " disponible). Ajoutez du stock d'abord.");
      } else {
        ContainsSecondAndFourth("Insufficient stock for ", nom, " (", Decimal(stock), " available). Add stock first.");
      }
    case NotFound(name) =>
      if lang == Fr {
        ContainsMiddle("Produit '", name, "' non trouvé. Ajoutez-le dans le stock d'abord.");
      } else {
        ContainsMiddle("Product '", name, "' not found. Add it to stock first.");
      }
    case _ =>
  }

  /** The generated advice when the week's expenses exceed its sales. */
  function AdviceText(lang: Lang, depenses: int, ventes: int): string {
    if lang == Fr then
      "\U{26A0}\U{FE0F} Attention: tes dépenses cette semaine (" + FormatFcfa(depenses) + ") dépassent tes ventes ("
      + FormatFcfa(ventes) + "). Essaie de réduire les dépenses non essentielles."
    else
      "\U{26A0}\U{FE0F} Warning: your expenses this week (" + FormatFcfa(depenses) + ") exceed your sales ("
      + FormatFcfa(ventes) + "). Try to reduce non-essential expenses."
  }

  /** The advice quotes the week's expenses and the week's sales. */
  lemma AdviceQuotesAmounts(lang: Lang, depenses: int, ventes: int)
    ensures Contains(AdviceText(lang, depenses, ventes), FormatFcfa(depenses))
    ensures Contains(AdviceText(lang, depenses, ventes), FormatFcfa(ventes))
  {
    if lang == Fr {
      ContainsSecondAndFourth(
        "\U{26A0}\U{FE0F} Attention: tes dépenses cette semaine (", FormatFcfa(depenses),
        ") dépassent tes ventes (", FormatFcfa(ventes), "). Essaie de réduire les dépenses non essentielles.");
    } else {
      ContainsSecondAndFourth(
        "\U{26A0}\U{FE0F} Warning: your expenses this week (", FormatFcfa(depenses),
        ") exceed your sales (", FormatFcfa(ventes), "). Try to reduce non-essential expenses.");
    }
  }

  datatype TxDetails =
    | SaleDetails(produit: string, quantite: int, montant: int)
    | ExpenseDetails(categorie: string, montant: int)
    | DebtDetails(client: string, montant: int)

  /** The `transaction_recorded` descriptor attached to the answer. */
  datatype TxRecorded = TxRecorded(kind: TxKind, details: TxDetails, message: string)

  /** What a turn's auto-record step leaves for the answer. */
  datatype Outcome = Recorded(tx: TxRecorded, response: string) | Noted(feedback: string) | Nothing

  /** The outcome of a decision, with its texts; a sale is described with the
      product as it was before the sale. */
  function OutcomeOf(ps: seq<Product>, d: Decision, lang: Lang): (o: Outcome)
    requires d.Commit? && d.m.SaleOf? ==> d.m.produitId < |ps|
    ensures o.Recorded? <==> d.Commit?
    ensures o.Noted? <==> d.Advise?
    ensures d.Advise? ==> o.feedback == FeedbackText(d.f, lang)
    ensures d.Commit? && d.m.SaleOf? ==>
      var p := ps[d.m.produitId];
      o.tx.details == SaleDetails(p.nom, d.m.quantite, d.m.quantite * p.prixUnitaire)
    ensures d.Commit? && d.m.ExpenseOf? ==> o.tx.details == ExpenseDetails(d.m.categorie, d.m.montant)
    ensures d.Commit? && d.m.DebtOf? ==> o.tx.details == DebtDetails(d.m.client, d.m.montant)
    ensures o.Recorded? ==> o.response == Confirmation(lang, o.tx.kind, o.tx.message)
  {
    match d
    case Commit(SaleOf(i, q)) =>
      var p := ps[i];
      var message := SaleMessage(lang, q, p.nom, q * p.prixUnitaire);
      Recorded(TxRecorded(VenteTx, SaleDetails(p.nom, q, q * p.prixUnitaire), message), Confirmation(lang, VenteTx, message))
    case Commit(ExpenseOf(categorie, montant, _)) =>
      var message := ExpenseMessage(lang, montant, categorie);
      Recorded(TxRecorded(DepenseTx, ExpenseDetails(categorie, montant), message), Confirmation(lang, DepenseTx, message))
    case Commit(DebtOf(client, montant)) =>
      var message := DebtMessage(lang, client, montant);
      Recorded(TxRecorded(DetteTx, DebtDetails(client, montant), message), Confirmation(lang, DetteTx, message))
    case Advise(f) => Noted(FeedbackText(f, lang))
    case Skip => Nothing
    case Raise(_) => Nothing
  }

  lemma LowerKeeps(s: string)
    requires forall i :: 0 <= i < |s| ==> !('A' <= s[i] <= 'Z')
    ensures Lower(s) == s
  {
  }

  lemma MarkerInside(a: string, m: string, b: string)
    requires Lower(m) == m
    ensures Contains(Lower(a + m + b), m)
  {
    LowerAppend(a + m, b);
    LowerAppend(a, m);
    ContainsMiddle(Lower(a), m, Lower(b));
  }

  /** A confirmation built on a message that starts with its marker is
      one the guard counts. */
  lemma ConfirmationCounted(lang: Lang, kind: TxKind, tail: string)
    ensures IsAutoMarker(Confirmation(lang, kind, HeadWord(lang, kind) + Marker(lang) + tail))
  {
    var opening := if lang == Fr then "C'est noté ! " else "Got it! ";
    var a := opening + HeadWord(lang, kind);
    var b := tail + " " + Emoji(kind);
    assert Confirmation(lang, kind, HeadWord(lang, kind) + Marker(lang) + tail) == a + Marker(lang) + b;
    LowerKeeps(MarkerFr);
    LowerKeeps(MarkerEn);
    MarkerInside(a, Marker(lang), b);
  }

  /** Every recorded transaction's answer is one the guard counts, so each
      logged confirmation brings the guard one step closer to its cap. */
  lemma ConfirmationIsCounted(ps: seq<Product>, d: Decision, lang: Lang)
    requires d.Commit? && d.m.SaleOf? ==> d.m.produitId < |ps|
    requires d.Commit?
    ensures IsAutoMarker(OutcomeOf(ps, d, lang).response)
  {
    match d.m
    case SaleOf(i, q) =>
      var p := ps[i];
      ConfirmationCounted(lang, VenteTx, " " + Decimal(q) + "x " + p.nom + " = " + FormatFcfa(q * p.prixUnitaire));
    case ExpenseOf(categorie, montant, _) =>
      ConfirmationCounted(lang, DepenseTx, " " + FormatFcfa(montant) + " (" + categorie + ")");
    case DebtOf(client, montant) =>
      ConfirmationCounted(lang, DetteTx, " " + client + (if lang == Fr then " doit " else " owes ") + FormatFcfa(montant));
  }

  // ------------------------------------------------------ the composition

  /** The chat model's decoded answer: its `response`, its own
      `transaction_recorded` key as JSON text (`None` when absent) and its
      `proactive_advice` (`JNull` when absent). */
  datatype Reply = Reply(response: Option<string>, transaction: Option<string>, proactiveAdvice: Json)

  /** The `transaction_recorded` key of the answer returned: absent, the
      transaction this turn recorded, or the one the model's answer carried. */
  datatype TxKey = TxAbsent | TxOurs(tx: TxRecorded) | TxDecoded(json: string)

  /** The answer returned: response text, `transaction_recorded`, advice. */
  datatype Answer = Answer(response: Option<string>, transaction: TxKey, proactiveAdvice: Json)

  /** A recorded transaction replaces the response and the model's own
      `transaction_recorded`; otherwise that key passes through untouched,
      and feedback is added after the response, or is the whole response
      when there was none; the advice is generated only when the week's
      expenses exceed its sales and the model gave none. */
  function Compose(reply: Reply, o: Outcome, lang: Lang, ventesSemaine: int, depensesSemaine: int): (a: Answer)
    ensures a.transaction.TxOurs? <==> o.Recorded?
    ensures o.Recorded? ==> a.transaction == TxOurs(o.tx) && a.response == Some(o.response)
    ensures !o.Recorded? ==> (a.transaction.TxDecoded? <==> reply.transaction.Some?)
    ensures !o.Recorded? && reply.transaction.Some? ==> a.transaction == TxDecoded(reply.transaction.value)
    ensures o.Noted? ==> a.response.Some? && EndsWith(a.response.value, o.feedback)
    ensures o.Noted? && reply.response.Some? && reply.response.value != "" ==>
      StartsWith(a.response.value, reply.response.value + "\n\n\U{1F4A1} ")
      && |a.response.value| == |reply.response.value| + 4 + |o.feedback|
    ensures o.Noted? && (reply.response.None? || reply.response.value == "") ==> a.response == Some(o.feedback)
    ensures o.Nothing? ==> a.response == reply.response
    ensures a.proactiveAdvice != reply.proactiveAdvice ==> depensesSemaine > ventesSemaine && !Truthy(reply.proactiveAdvice)
    ensures depensesSemaine > ventesSemaine && !Truthy(reply.proactiveAdvice) ==>
      a.proactiveAdvice == JStr(AdviceText(lang, depensesSemaine, ventesSemaine))
  {
    var response :=
      match o
      case Recorded(_, confirmation) => Some(confirmation)
      case Noted(feedback) =>
        if reply.response.Some? && reply.response.value != "" then
          var joined := reply.response.value + "\n\n\U{1F4A1} " + feedback;
          assert joined[..|reply.response.value| + 4] == reply.response.value + "\n\n\U{1F4A1} ";
          assert joined[|joined| - |feedback|..] == feedback;
          Some(joined)
        else Some(feedback)
      case Nothing => reply.response;
    var advice :=
      if depensesSemaine > ventesSemaine && !Truthy(reply.proactiveAdvice) then JStr(AdviceText(lang, depensesSemaine, ventesSemaine))
      else reply.proactiveAdvice;
    var transaction :=
      if o.Recorded? then TxOurs(o.tx)
      else if reply.transaction.Some? then TxDecoded(reply.transaction.value)
      else TxAbsent;
    Answer(response, transaction, advice)
  }

  /** The line a turn that recorded a transaction logs counts against every
      turn of the next five minutes: ten such turns in that window make the
      guard refuse the eleventh. */
  lemma RecordedTurnCounts(logs: seq<ChatLog>, ps: seq<Product>, d: Decision, reply: Reply, lang: Lang,
                           ventesSemaine: int, depensesSemaine: int, at: int, now: int)
    requires d.Commit? && (d.m.SaleOf? ==> d.m.produitId < |ps|)
    requires now - AutoWindowSeconds <= at
    ensures var a := Compose(reply, OutcomeOf(ps, d, lang), lang, ventesSemaine, depensesSemaine);
      RecentAutoCount(logs + [ChatLog(at, a.response.GetOr(""), true)], now) == RecentAutoCount(logs, now) + 1
  {
    ConfirmationIsCounted(ps, d, lang);
    var a := Compose(reply, OutcomeOf(ps, d, lang), lang, ventesSemaine, depensesSemaine);
    RecentAutoCountAppend(logs, ChatLog(at, a.response.GetOr(""), true), now);
  }

  // ------------------------------------------------------------- the turn

  const ApologyRetry: string := "Désolée, j'ai rencontré un problème technique. Pouvez-vous réessayer ? \U{1F64F}"
  const ApologyRephrase: string := "Désolée, j'ai rencontré un problème technique. Pouvez-vous reformuler votre question ? \U{1F64F}"
  const ApologyNoApi: string := "Désolée, je rencontre un problème technique. Vérifie la configuration de l'API ! \U{1F64F}"

  function QuotaMessage(quota: int): string {
    "Tu as atteint ton quota de messages (" + Decimal(quota) + "/mois). Passe Premium pour plus de conversations ! \U{1F48E}"
  }

  datatype ChatbotReply = Replied(answer: Answer) | Apology(text: string) | QuotaReached(text: string)

  /** The answer of the chat model as the handler reads it: without a
      brace-delimited object the cleaned text is the response; an object the
      decoder rejects is the JSON error path. */
  function ReadReply(text: Option<string>, decode: string -> Result<Reply, string>): (r: Result<Reply, string>)
    ensures ExtractJsonObject(StripFences(text.GetOr(""))).None? ==> r == Success(Reply(Some(StripFences(text.GetOr(""))), None, JNull))
    ensures ExtractJsonObject(StripFences(text.GetOr(""))).Some? ==> r == decode(ExtractJsonObject(StripFences(text.GetOr(""))).value)
  {
    var cleaned := StripFences(text.GetOr(""));
    match ExtractJsonObject(cleaned)
    case None => Success(Reply(Some(cleaned), None, JNull))
    case Some(candidate) => decode(candidate)
  }

  /** The rows a committed decision writes. */
  function Applied(t: Tables, m: Mutation): Tables
    requires m.SaleOf? ==> m.produitId < |t.products|
  {
    match m
    case SaleOf(i, q) =>
      var p := t.products[i];
      t.(products := t.products[i := p.(stock := p.stock - q)],
         sales := t.sales + [Sale(i, q, p.prixUnitaire, q * p.prixUnitaire, false)])
    case ExpenseOf(categorie, montant, description) =>
      t.(expenses := t.expenses + [Expense(categorie, montant, description)])
    case DebtOf(client, montant) =>
      t.(debts := t.debts + [Debt(Take(client, 100), None, montant, montant, EnCours, false)])
  }

  /** An applied mutation keeps, for every product, stock on hand plus the
      units sold by live sales: a sale moves units from one to the other,
      and an expense or a debt touches neither. */
  lemma AppliedConserves(t: Tables, m: Mutation, pid: nat)
    requires m.SaleOf? ==> m.produitId < |t.products|
    requires pid < |t.products|
    ensures |Applied(t, m).products| == |t.products|
    ensures Applied(t, m).products[pid].stock + Sold(Applied(t, m).sales, pid)
         == t.products[pid].stock + Sold(t.sales, pid)
  {
    if m.SaleOf? {
      var p := t.products[m.produitId];
      SoldAppend(t.sales, Sale(m.produitId, m.quantite, p.prixUnitaire, m.quantite * p.prixUnitaire, false), pid);
    }
  }

  /** The guarded mutation: the sale and its stock decrement together, or
      the expense row, or the debt row with the name cut to 100 characters. */
  method Apply(l: Ledger, m: Mutation)
    requires l.Valid() && Applicable(l.products, m)
    modifies l
    ensures l.Valid()
    ensures l.Snapshot() == Applied(old(l.Snapshot()), m)
  {
    match m
    case SaleOf(i, q) =>
      var _ := l.CreateSale(i, q);
    case ExpenseOf(categorie, montant, description) =>
      var _ := l.AddExpense(categorie, montant, description);
    case DebtOf(client, montant) =>
      var _ := l.CreateDebt(Take(client, 100), None, montant);
  }

  /** The end of a turn that got a readable answer: the committed
      mutation, the composed answer, and its log line. */
  method FinishTurn(l: Ledger, reply: Reply, d: Decision, lang: Lang, ventesSemaine: int, depensesSemaine: int, now: int)
    returns (answer: Answer)
    requires l.Valid()
    requires d.Commit? ==> Applicable(l.products, d.m)
    modifies l
    ensures l.Valid()
    ensures answer == Compose(reply, OutcomeOf(old(l.products), d, lang), lang, ventesSemaine, depensesSemaine)
    ensures l.Snapshot() == (if d.Commit? then Applied(old(l.Snapshot()), d.m) else old(l.Snapshot()))
      .(chatLogs := old(l.chatLogs) + [ChatLog(now, answer.response.GetOr(""), true)])
  {
    var outcome := OutcomeOf(l.products, d, lang);
    if d.Commit? {
      Apply(l, d.m);
    }
    answer := Compose(reply, outcome, lang, ventesSemaine, depensesSemaine);
    l.LogChat(ChatLog(now, answer.response.GetOr(""), true));
  }

  /** A turn that replied: the model answered with a readable reply, the
      decision taken on the tables before the turn was applied, the answer
      is the reply composed with that decision's outcome, and one log line
      holding the answer's response was added. */
  predicate RepliedTurn(
    before: Tables, after: Tables, answer: Answer, language: string, autoRecord: bool, now: int,
    ventesSemaine: int, depensesSemaine: int,
    configured: bool, call: LlmCall, decode: string -> Result<Reply, string>, intent: Intent)
  {
    var d := Decide(before.products, RecentAutoCount(before.chatLogs, now), autoRecord, intent);
    var lang := LangOf(language);
    && configured && call.Answered? && ReadReply(call.text, decode).Success?
    && !d.Raise?
    && after == (if d.Commit? then Applied(before, d.m) else before)
         .(chatLogs := before.chatLogs + [ChatLog(now, answer.response.GetOr(""), true)])
    && answer == Compose(ReadReply(call.text, decode).value, OutcomeOf(before.products, d, lang), lang, ventesSemaine, depensesSemaine)
  }

  /** The turn reaches an answer: the model is configured and answered with
      readable JSON, and the auto-record decision raised nothing. */
  predicate Answers(
    products: seq<Product>, chatLogs: seq<ChatLog>, now: int, autoRecord: bool,
    configured: bool, call: LlmCall, decode: string -> Result<Reply, string>, intent: Intent)
  {
    && configured && call.Answered? && ReadReply(call.text, decode).Success?
    && !Decide(products, RecentAutoCount(chatLogs, now), autoRecord, intent).Raise?
  }

  /** A turn past the request checks: every path logs exactly one chat
      line, a failed one with `success=False` and an apology, and only a
      committed decision writes ledger rows. */
  method AnswerTurn(
    l: Ledger, language: string, autoRecord: bool, now: int, ventesSemaine: int, depensesSemaine: int,
    configured: bool, call: LlmCall, decode: string -> Result<Reply, string>, intent: Intent)
    returns (reply: ChatbotReply)
    requires l.Valid()
    modifies l
    ensures l.Valid()
    ensures !reply.QuotaReached?
    ensures |l.chatLogs| == |old(l.chatLogs)| + 1
    ensures reply.Apology? ==> !l.chatLogs[|l.chatLogs| - 1].success
    ensures reply.Replied? ==>
      RepliedTurn(old(l.Snapshot()), l.Snapshot(), reply.answer, language, autoRecord, now, ventesSemaine, depensesSemaine,
                  configured, call, decode, intent)
    ensures !reply.Replied? ==> l.Snapshot() == old(l.Snapshot()).(chatLogs := l.chatLogs)
    ensures reply.Replied? <==>
      Answers(old(l.products), old(l.chatLogs), now, autoRecord, configured, call, decode, intent)
    ensures !configured ==>
      reply == Apology(ApologyNoApi) && l.chatLogs == old(l.chatLogs) + [ChatLog(now, "API non configurée", false)]
    ensures configured && call.Raised? ==>
      reply == Apology(ApologyRetry) && l.chatLogs == old(l.chatLogs) + [ChatLog(now, call.error, false)]
    ensures configured && call.Answered? && ReadReply(call.text, decode).Failure? ==>
      && reply == Apology(ApologyRephrase)
      && l.chatLogs == old(l.chatLogs) + [ChatLog(now, "Erreur JSON: " + ReadReply(call.text, decode).error, false)]
    ensures configured && call.Answered? && ReadReply(call.text, decode).Success? ==>
      var d := Decide(old(l.products), RecentAutoCount(old(l.chatLogs), now), autoRecord, intent);
      d.Raise? ==> reply == Apology(ApologyRetry) && l.chatLogs == old(l.chatLogs) + [ChatLog(now, d.error, false)]
  {
    if !configured {
      l.LogChat(ChatLog(now, "API non configurée", false));
      return Apology(ApologyNoApi);
    }
    if call.Raised? {
      l.LogChat(ChatLog(now, call.error, false));
      return Apology(ApologyRetry);
    }
    var read := ReadReply(call.text, decode);
    if read.Failure? {
      l.LogChat(ChatLog(now, "Erreur JSON: " + read.error, false));
      return Apology(ApologyRephrase);
    }
    var lang := LangOf(language);
    var ps := l.products;
    var d := Decide(ps, RecentAutoCount(l.chatLogs, now), autoRecord, intent);
    if d.Raise? {
      l.LogChat(ChatLog(now, d.error, false));
      return Apology(ApologyRetry);
    }
    var answer := FinishTurn(l, read.value, d, lang, ventesSemaine, depensesSemaine, now);
    reply := Replied(answer);
  }

  /** One `chatbot_message` turn. The chat model's answer, the detected
      intent and the week's sales and expenses are inputs. A refused turn
      (invalid message, monthly quota) writes nothing; every other turn logs
      one chat line, and only a committed decision writes ledger rows. */
  method ChatbotMessage(
    l: Ledger, message: string, language: string, autoRecord: bool, planType: string,
    monthStart: int, now: int, ventesSemaine: int, depensesSemaine: int,
    configured: bool, call: LlmCall, decode: string -> Result<Reply, string>, intent: Intent)
    returns (r: Result<ChatbotReply, Rejection>)
    requires l.Valid()
    modifies l
    ensures l.Valid()
    ensures !(1 <= |message| <= 1000) ==> r == Failure(Invalid(["message"])) && l.Snapshot() == old(l.Snapshot())
    ensures 1 <= |message| <= 1000 && CountSince(old(l.chatLogs), ChatStamp, monthStart) >= ChatQuota(planType) ==>
      r == Success(QuotaReached(QuotaMessage(ChatQuota(planType)))) && l.Snapshot() == old(l.Snapshot())
    ensures r.Success? && !r.value.QuotaReached? ==> |l.chatLogs| == |old(l.chatLogs)| + 1
    ensures r.Success? && r.value.Apology? ==> !l.chatLogs[|l.chatLogs| - 1].success
    ensures r.Success? && r.value.Replied? ==>
      RepliedTurn(old(l.Snapshot()), l.Snapshot(), r.value.answer, language, autoRecord, now, ventesSemaine, depensesSemaine,
                  configured, call, decode, intent)
    ensures !(r.Success? && r.value.Replied?) ==> l.Snapshot() == old(l.Snapshot()).(chatLogs := l.chatLogs)
    ensures r.Success? <==> 1 <= |message| <= 1000
    ensures r.Success? ==>
      && (r.value.QuotaReached? <==> CountSince(old(l.chatLogs), ChatStamp, monthStart) >= ChatQuota(planType))
      && (r.value.Replied? <==>
            && CountSince(old(l.chatLogs), ChatStamp, monthStart) < ChatQuota(planType)
            && Answers(old(l.products), old(l.chatLogs), now, autoRecord, configured, call, decode, intent))
  {
    if !(1 <= |message| <= 1000) {
      return Failure(Invalid(["message"]));
    }
    var quota := ChatQuota(planType);
    if CountSince(l.chatLogs, ChatStamp, monthStart) >= quota {
      return Success(QuotaReached(QuotaMessage(quota)));
    }
    var reply := AnswerTurn(l, language, autoRecord, now, ventesSemaine, depensesSemaine, configured, call, decode, intent);
    r := Success(reply);
  }
}

=== FILE: fcfa.dfy ===
/** The FCFA amount formatter used in every confirmation and advice text:
    Python's `f"{montant:,}"` with each comma replaced by a space, then
    " FCFA" (Backend/gemini_service.py and Backend/main.py define the same
    function). */
module Fcfa {
  import opened Wrappers
  import opened Text
  import opened Numerals

  /** Digit groups of three counted from the right, joined by single spaces. */
  function Grouped(s: string): (r: string)
    decreases |s|
  {
    if |s| <= 3 then s else Grouped(s[..|s| - 3]) + " " + s[|s| - 3..]
  }

  /** `format_fcfa(montant)` */
  function FormatFcfa(montant: int): (r: string)
    ensures EndsWith(r, " FCFA")
    ensures StartsWith(r, "-") <==> montant < 0
  {
    var sign := if montant < 0 then "-" else "";
    var body := Grouped(Digits(if montant < 0 then -montant else montant));
    GroupedStartsWithDigit(Digits(if montant < 0 then -montant else montant));
    assert (sign + body + " FCFA")[|sign + body|..] == " FCFA";
    assert (sign + body + " FCFA")[0] == if montant < 0 then '-' else body[0];
    sign + body + " FCFA"
  }

  function RemoveSpaces(s: string): (r: string)
  {
    if s == [] then [] else (if s[0] == ' ' then [] else [s[0]]) + RemoveSpaces(s[1..])
  }

  lemma {:induction false} RemoveSpacesAppend(a: string, b: string)
    ensures RemoveSpaces(a + b) == RemoveSpaces(a) + RemoveSpaces(b)
  {
    if a == [] {
      assert a + b == b;
    } else {
      assert (a + b)[1..] == a[1..] + b;
      RemoveSpacesAppend(a[1..], b);
    }
  }

  lemma {:induction false} RemoveSpacesOfDigits(s: string)
    requires AllDigits(s)
    ensures RemoveSpaces(s) == s
  {
    if s != [] {
      RemoveSpacesOfDigits(s[1..]);
    }
  }

  lemma {:induction false} GroupedStartsWithDigit(s: string)
    requires AllDigits(s) && s != []
    ensures Grouped(s) != [] && IsDigit(Grouped(s)[0])
    decreases |s|
  {
    if |s| > 3 {
      GroupedStartsWithDigit(s[..|s| - 3]);
    }
  }

  /** One more group of digits after a space ungroups onto the end. */
  lemma RemoveSpacesGroup(g: string, t: string)
    requires AllDigits(t)
    ensures RemoveSpaces(g + " " + t) == RemoveSpaces(g) + t
  {
    assert RemoveSpaces(" ") == [] by {
      assert " "[1..] == [];
    }
    calc {
      RemoveSpaces(g + " " + t);
      { RemoveSpacesAppend(g + " ", t); }
      RemoveSpaces(g + " ") + RemoveSpaces(t);
      { RemoveSpacesAppend(g, " "); RemoveSpacesOfDigits(t); }
      RemoveSpaces(g) + [] + t;
      { assert RemoveSpaces(g) + [] == RemoveSpaces(g); }
      RemoveSpaces(g) + t;
    }
  }

  /** Taking the spaces out of the grouped form gives the digits back. */
  lemma {:induction false} GroupedUngroups(s: string)
    requires AllDigits(s)
    ensures RemoveSpaces(Grouped(s)) == s
    decreases |s|
  {
    if |s| <= 3 {
      RemoveSpacesOfDigits(s);
    } else {
      var p, t := s[..|s| - 3], s[|s| - 3..];
      GroupedUngroups(p);
      RemoveSpacesGroup(Grouped(p), t);
      assert p + t == s;
    }
  }

  /** Spaces stand exactly at the positions followed by 3, 7, 11, ...
      characters. */
  predicate SpacedByFours(r: string) {
    forall k :: 0 <= k < |r| ==> (r[k] == ' ' <==> (|r| - 1 - k) % 4 == 3)
  }

  /** A space and one more group of three digits keep the spacing. */
  lemma SpacedAppend(g: string, t: string)
    requires SpacedByFours(g) && |t| == 3 && AllDigits(t)
    ensures SpacedByFours(g + " " + t)
  {
    var r := g + " " + t;
    forall k | 0 <= k < |r| ensures r[k] == ' ' <==> (|r| - 1 - k) % 4 == 3 {
      if k < |g| {
        assert r[k] == g[k];
        assert g[k] == ' ' <==> (|g| - 1 - k) % 4 == 3;
      } else if k > |g| {
        assert r[k] == t[k - |g| - 1];
        assert IsDigit(t[k - |g| - 1]);
      }
    }
  }

  /** The grouped form of `k` digits has groups of three from the right,
      each after one space, and a first group of one to three digits. */
  lemma {:induction false} GroupedShape(s: string)
    requires AllDigits(s) && s != []
    ensures |Grouped(s)| == |s| + (|s| - 1) / 3
    ensures SpacedByFours(Grouped(s))
    decreases |s|
  {
    if |s| <= 3 {
      forall k | 0 <= k < |s| ensures s[k] != ' ' && (|s| - 1 - k) % 4 != 3 {
        assert IsDigit(s[k]);
      }
    } else {
      var p, t := s[..|s| - 3], s[|s| - 3..];
      GroupedShape(p);
      SpacedAppend(Grouped(p), t);
    }
  }

  /** Reads an amount back from its formatted text. */
  function ParseFcfa(text: string): Option<int> {
    if !EndsWith(text, " FCFA") then None
    else
      var body := text[..|text| - 5];
      var negative := StartsWith(body, "-");
      var digits := RemoveSpaces(if negative then body[1..] else body);
      if digits == [] || !AllDigits(digits) then None
      else
        var value: int := ValueOf(digits);
        Some(if negative then -value else value)
  }

  /** Formatting loses nothing: the amount can be read back exactly. */
  lemma FormatParses(montant: int)
    ensures ParseFcfa(FormatFcfa(montant)) == Some(montant)
  {
    var m := if montant < 0 then -montant else montant;
    var d := Digits(m);
    var sign := if montant < 0 then "-" else "";
    var body := Grouped(d);
    var text := FormatFcfa(montant);
    assert text[..|text| - 5] == sign + body;
    GroupedStartsWithDigit(d);
    assert StartsWith(sign + body, "-") <==> montant < 0 by {
      assert (sign + body)[0] == if montant < 0 then '-' else body[0];
    }
    assert (if montant < 0 then (sign + body)[1..] else sign + body) == body;
    GroupedUngroups(d);
    DigitsRoundTrip(m);
  }

  lemma DigitsExample()
    ensures Digits(125000) == "125000"
  {
    assert Digits(12) == "12";
    assert Digits(125) == "125";
    assert Digits(1250) == "1250";
    assert Digits(12500) == "12500";
  }

  lemma GroupedExample()
    ensures Grouped("125000") == "125 000"
  {
    assert "125000"[..3] == "125" && "125000"[3..] == "000";
  }

  /** The example the assistant's prompt gives: 125000 is "125 000 FCFA". */
  lemma FormatExample()
    ensures FormatFcfa(125000) == "125 000 FCFA"
  {
    DigitsExample();
    GroupedExample();
  }
}

=== FILE: gemini.dfy ===
/** The text handling around the language-model calls
    (Backend/gemini_service.py): cleaning the raw answer, extracting the
    JSON object from it, the product catalogue shown in the prompts, the
    conversation history block, and what each call returns. The model call
    itself is an input: it either raised or answered with a text (which can
    be `None`). `json.loads` is an input too, as a decoder that fails
    (`None`) on malformed text. */
module Gemini {
  import opened Wrappers
  import opened JsonValues
  import opened Text
  import opened Numerals
  import opened Intents

  datatype LlmCall = Raised(error: string) | Answered(text: Option<string>)

  // ------------------------------------------------------- answer cleaning

  /** A leading "```json" dropped, then a leading "```", then a trailing
      "```", in that order. */
  function Unfence(t0: string): (r: string)
    ensures |t0| - 13 <= |r| <= |t0|
    ensures Contains(t0, r)
    ensures !StartsWith(t0, "```") && !EndsWith(t0, "```") ==> r == t0
  {
    var a := if StartsWith(t0, "```json") then 7 else 0;
    var t1 := t0[a..];
    var b := if StartsWith(t1, "```") then 3 else 0;
    var t2 := t1[b..];
    var r := if EndsWith(t2, "```") then t2[..|t2| - 3] else t2;
    assert t0[a + b..][..|r|] == r;
    assert StartsWith(t0[a + b..], r);
    r
  }

  /** `(response.text or "").strip()`, then the fences dropped. */
  function StripFences(raw: string): (r: string)
    ensures |r| <= |Strip(raw)|
  {
    Unfence(Strip(raw))
  }

  /** A closing fence is what the last cleaning step drops. */
  lemma ClosingFenceDropped(body: string)
    ensures var u := body + "```"; EndsWith(u, "```") && u[..|u| - 3] == body
  {
    var u := body + "```";
    assert u[|u| - 3..] == "```";
    assert u[..|u| - 3] == body;
  }

  /** A text with no opening fence loses exactly its closing fence. */
  lemma ClosingFenceUnfenced(body: string)
    requires body != [] && body[0] != '`'
    ensures Unfence(body + "```") == body
  {
    var u := body + "```";
    ClosingFenceDropped(body);
    assert u[0] == body[0];
    assert !StartsWith(u, "```json") by { assert |u| < 7 || u[..7][0] == u[0]; }
    assert !StartsWith(u, "```") by { assert u[..3][0] == u[0]; }
  }

  /** A body wrapped in a "```json" fence comes back unchanged. */
  lemma JsonFenceRemoved(body: string)
    requires body != [] && body[0] != '`'
    ensures StripFences("```json" + body + "```") == body
  {
    var t := "```json" + body + "```";
    StripKeeps(t);
    assert t[..7] == "```json";
    assert t[7..] == body + "```";
    ClosingFenceDropped(body);
    assert !StartsWith(body + "```", "```") by {
      assert (body + "```")[0] == body[0];
    }
  }

  /** A bare fence around a body not starting with "json" is not a "```json"
      fence. */
  lemma BareFenceIsNotJson(body: string)
    requires body != [] && body[0] != '`' && !StartsWith(body, "json")
    ensures !StartsWith("```" + body + "```", "```json")
  {
    var t := "```" + body + "```";
    if |body| >= 4 {
      assert t[3..7] == body[..4];
    } else {
      assert t[3 + |body|] == '`';
    }
  }

  /** A body wrapped in a bare "```" fence comes back unchanged. */
  lemma BareFenceRemoved(body: string)
    requires body != [] && body[0] != '`' && !StartsWith(body, "json")
    ensures StripFences("```" + body + "```") == body
  {
    var t := "```" + body + "```";
    StripKeeps(t);
    BareFenceIsNotJson(body);
    assert t[..3] == "```";
    assert t[3..] == body + "```";
    ClosingFenceDropped(body);
  }

  /** Text that neither starts nor ends with a backquote has no fence. */
  lemma NoFenceKept(t: string)
    requires t != [] ==> t[0] != '`' && t[|t| - 1] != '`'
    ensures Unfence(t) == t
  {
    if |t| >= 3 {
      assert t[..3][0] == t[0];
      assert t[|t| - 3..][2] == t[|t| - 1];
      assert !StartsWith(t, "```") && !EndsWith(t, "```");
    }
    if |t| >= 7 {
      assert t[..7][0] == t[0];
    }
  }

  /** An answer without fences or surrounding white space is left alone. */
  lemma UnfencedKept(t: string)
    requires t != [] ==> t[0] != '`' && t[|t| - 1] != '`' && !IsSpace(t[0]) && !IsSpace(t[|t| - 1])
    ensures StripFences(t) == t
  {
    StripKeeps(t);
    NoFenceKept(t);
  }

  /** Position of the first `c` in `t`. */
  function FirstIndex(t: string, c: char): (r: Option<nat>)
    ensures r.Some? ==> r.value < |t| && t[r.value] == c && c !in t[..r.value]
    ensures r.None? ==> c !in t
  {
    if t == [] then None
    else if t[0] == c then Some(0)
    else match FirstIndex(t[1..], c)
      case None => None
      case Some(i) =>
        assert t[..i + 1] == [t[0]] + t[1..][..i];
        Some(i + 1)
  }

  /** Position of the last `c` in `t`. */
  function LastIndex(t: string, c: char): (r: Option<nat>)
    ensures r.Some? ==> r.value < |t| && t[r.value] == c && c !in t[r.value + 1..]
    ensures r.None? ==> c !in t
  {
    if t == [] then None
    else if t[|t| - 1] == c then Some(|t| - 1)
    else match LastIndex(t[..|t| - 1], c)
      case None => None
      case Some(i) =>
        assert t[i + 1..] == t[..|t| - 1][i + 1..] + [t[|t| - 1]];
        Some(i)
  }

  /** `re.search(r'\{.*\}', t, re.DOTALL)`: the greedy match runs from the
      first '{' to the last '}', and exists exactly when some '}' follows
      some '{'. */
  function ExtractJsonObject(t: string): (r: Option<string>)
    ensures r.Some? <==> exists i, j :: 0 <= i < j < |t| && t[i] == '{' && t[j] == '}'
    ensures r.Some? ==> |r.value| >= 2 && r.value[0] == '{' && r.value[|r.value| - 1] == '}'
    ensures r.Some? ==> exists i :: (0 <= i <= |t| - |r.value| && t[i..][..|r.value|] == r.value
                                    && '{' !in t[..i] && '}' !in t[i..][|r.value|..])
  {
    match FirstIndex(t, '{')
    case None => None
    case Some(i) =>
      match LastIndex(t, '}')
      case None => None
      case Some(j) =>
        if i < j then
          assert t[i..][..j + 1 - i] == t[i..j + 1];
          assert t[i..][j + 1 - i..] == t[j + 1..];
          Some(t[i..j + 1])
        else
          None
  }

  /** The answer of `detect_transaction_intent`. It never raises: a missing
      client, a model exception, an answer without a brace-delimited object
      and an object `json.loads` rejects all give `NoTransaction`. */
  function DetectIntent(configured: bool, call: LlmCall, decode: string -> Option<Intent>): (r: Intent)
    ensures !configured || call.Raised? ==> r == NoTransaction
    ensures r != NoTransaction ==>
      configured && call.Answered? &&
      var candidate := ExtractJsonObject(StripFences(call.text.GetOr("")));
      candidate.Some? && decode(candidate.value) == Some(r)
    ensures configured && call.Answered? ==>
      var candidate := ExtractJsonObject(StripFences(call.text.GetOr("")));
      candidate.Some? && decode(candidate.value).Some? ==> r == decode(candidate.value).value
  {
    if !configured then NoTransaction
    else match call
      case Raised(_) => NoTransaction
      case Answered(text) =>
        match ExtractJsonObject(StripFences(text.GetOr("")))
        case None => NoTransaction
        case Some(candidate) =>
          match decode(candidate)
          case None => NoTransaction
          case Some(intent) => intent
  }

  /** Text with no '{' before a '}' never yields a transaction. */
  lemma NonJsonAnswerHasNoTransaction(configured: bool, text: string, decode: string -> Option<Intent>)
    requires '{' !in StripFences(text)
    ensures !Truthy(DetectIntent(configured, Answered(Some(text)), decode).hasTransaction)
  {
    var t := StripFences(text);
    assert forall i :: 0 <= i < |t| ==> t[i] != '{';
  }

  // ---------------------------------------------------------- voice input

  datatype VoiceParse = VoiceParse(success: Json, produitNom: Json, quantite: Json, prixUnitaire: Json, confiance: Json)

  /** `{"success": False, "error": ...}` */
  const VoiceFailure: VoiceParse := VoiceParse(JBool(false), JNull, JNull, JNull, JNum(0.0))

  /** `parse_voice_input`: the cleaned answer, stripped once more, is decoded
      whole (no brace extraction); every failure is a `success: False` answer. */
  function ParseVoiceInput(configured: bool, call: LlmCall, decode: string -> Option<VoiceParse>): (r: VoiceParse)
    ensures !configured || call.Raised? ==> r == VoiceFailure
    ensures r != VoiceFailure ==>
      configured && call.Answered? && decode(Strip(StripFences(call.text.GetOr("")))) == Some(r)
    ensures configured && call.Answered? ==>
      var decoded := decode(Strip(StripFences(call.text.GetOr(""))));
      && (decoded.Some? ==> r == decoded.value)
      && (decoded.None? ==> r == VoiceFailure)
  {
    if !configured then VoiceFailure
    else match call
      case Raised(_) => VoiceFailure
      case Answered(text) =>
        match decode(Strip(StripFences(text.GetOr(""))))
        case None => VoiceFailure
        case Some(v) => v
  }

  // ------------------------------------------------------ prompt catalogue

  datatype CatalogEntry = CatalogEntry(nom: string, prixUnitaire: int)

  /** `f"{p['nom']} ({p['prix_unitaire']} FCFA)"` */
  function CatalogLine(e: CatalogEntry): (line: string)
    ensures StartsWith(line, e.nom)
    ensures EndsWith(line, " (" + Decimal(e.prixUnitaire) + " FCFA)")
    ensures |line| == |e.nom| + |" (" + Decimal(e.prixUnitaire) + " FCFA)"|
  {
    var price := " (" + Decimal(e.prixUnitaire) + " FCFA)";
    var line := e.nom + price;
    assert line[..|e.nom|] == e.nom;
    assert line[|line| - |price|..] == price;
    assert e.nom + " (" + Decimal(e.prixUnitaire) + " FCFA)" == line;
    line
  }

  /** `sep.join(items)` */
  function Join(sep: string, items: seq<string>): (r: string)
    ensures items != [] ==> |r| >= |items[|items| - 1]|
  {
    if items == [] then ""
    else if |items| == 1 then items[0]
    else Join(sep, items[..|items| - 1]) + sep + items[|items| - 1]
  }

  function CatalogLines(entries: seq<CatalogEntry>): (lines: seq<string>)
    ensures |lines| == |entries| && forall i :: 0 <= i < |entries| ==> lines[i] == CatalogLine(entries[i])
  {
    seq(|entries|, i requires 0 <= i < |entries| => CatalogLine(entries[i]))
  }

  /** The product list of a prompt: the first `limit` products only. */
  function PromptCatalog(products: seq<CatalogEntry>, limit: nat): (r: string)
    ensures r == "" <==> limit == 0 || products == []
  {
    Join(", ", CatalogLines(Take(products, limit)))
  }

  /** `detect_transaction_intent` shows the first 30 products. */
  function IntentCatalog(products: seq<CatalogEntry>): string {
    PromptCatalog(products, 30)
  }

  /** `parse_voice_input` shows the first 20 products. */
  function VoiceCatalog(products: seq<CatalogEntry>): string {
    PromptCatalog(products, 20)
  }

  lemma {:induction false} JoinListsEach(sep: string, items: seq<string>, k: nat)
    requires k < |items|
    ensures Contains(Join(sep, items), items[k])
    decreases |items|
  {
    var front := items[..|items| - 1];
    if |items| == 1 {
      ContainsMiddle([], items[0], []);
      assert [] + items[0] + [] == items[0];
    } else if k == |items| - 1 {
      ContainsMiddle(Join(sep, front) + sep, items[k], []);
      assert Join(sep, front) + sep + items[k] + [] == Join(sep, items);
    } else {
      JoinListsEach(sep, front, k);
      assert front[k] == items[k];
      ContainsPrefix(Join(sep, front), sep + items[|items| - 1], items[k]);
      assert Join(sep, front) + (sep + items[|items| - 1]) == Join(sep, items);
    }
  }

  lemma ContainsPrefix(a: string, b: string, p: string)
    requires Contains(a, p)
    ensures Contains(a + b, p)
  {
    var i :| 0 <= i <= |a| && StartsWith(a[i..], p);
    assert (a + b)[i..][..|p|] == a[i..][..|p|];
  }

  /** Each of the first `limit` products is named in the prompt. */
  lemma CatalogShowsFirst(products: seq<CatalogEntry>, limit: nat, k: nat)
    requires k < limit && k < |products|
    ensures Contains(PromptCatalog(products, limit), CatalogLine(products[k]))
  {
    JoinListsEach(", ", CatalogLines(Take(products, limit)), k);
  }

  /** Products after the first `limit` do not change the prompt. */
  lemma CatalogIgnoresRest(products: seq<CatalogEntry>, rest: seq<CatalogEntry>, limit: nat)
    requires |products| >= limit
    ensures PromptCatalog(products + rest, limit) == PromptCatalog(products, limit)
  {
    assert Take(products + rest, limit) == Take(products, limit);
  }

  // ---------------------------------------------------- Cécile's history

  /** A history entry; `role` is `msg.get("role")`, `content` is
      `msg.get('content', '')`. */
  datatype HistoryMsg = HistoryMsg(role: Option<string>, content: string)

  function RoleLabel(role: Option<string>): string {
    if role == Some("user") then "Utilisateur" else "C\U{E9}cile"
  }

  function HistoryLine(m: HistoryMsg): string {
    RoleLabel(m.role) + ": " + m.content + "\n"
  }

  /** The lines of `msgs`, one per message, in order. */
  function HistoryText(msgs: seq<HistoryMsg>): string {
    if msgs == [] then "" else HistoryText(msgs[..|msgs| - 1]) + HistoryLine(msgs[|msgs| - 1])
  }

  lemma {:induction false} HistoryTextAppend(a: seq<HistoryMsg>, b: seq<HistoryMsg>)
    ensures HistoryText(a + b) == HistoryText(a) + HistoryText(b)
    decreases |b|
  {
    if b == [] {
      assert a + b == a;
    } else {
      var front := b[..|b| - 1];
      var last := b[|b| - 1];
      assert (a + b)[..|a + b| - 1] == a + front;
      assert (a + b)[|a + b| - 1] == last;
      calc {
        HistoryText(a + b);
        HistoryText(a + front) + HistoryLine(last);
        { HistoryTextAppend(a, front); }
        HistoryText(a) + HistoryText(front) + HistoryLine(last);
      }
    }
  }

  /** One more message writes one more line. */
  lemma HistoryTextStep(msgs: seq<HistoryMsg>, i: nat)
    requires i < |msgs|
    ensures HistoryText(msgs[..i + 1]) == HistoryText(msgs[..i]) + HistoryLine(msgs[i])
  {
    assert msgs[..i + 1][..i] == msgs[..i];
  }

  /** The history block of `chat_with_cecile`: a missing history is empty,
      and only the last 10 entries are written, one line each. */
  method FormatHistory(history: Option<seq<HistoryMsg>>) returns (s: string)
    ensures s == HistoryText(Last(history.GetOr([]), 10))
  {
    var msgs := Last(history.GetOr([]), 10);
    s := "";
    var i := 0;
    while i < |msgs|
      invariant 0 <= i <= |msgs|
      invariant s == HistoryText(msgs[..i])
    {
      HistoryTextStep(msgs, i);
      s := s + HistoryLine(msgs[i]);
      i := i + 1;
    }
    assert msgs[..i] == msgs;
  }

  /** Entries older than the last ten never reach the prompt. */
  lemma HistoryKeepsLastTen(older: seq<HistoryMsg>, recent: seq<HistoryMsg>)
    requires |recent| == 10
    ensures HistoryText(Last(older + recent, 10)) == HistoryText(recent)
  {
    assert (older + recent)[|older + recent| - 10..] == recent;
  }

  datatype CecileResult = CecileResult(success: bool, response: Option<string>, error: Option<string>)

  /** What `chat_with_cecile` returns: the stripped answer on success, and
      `response = None` with an error text when the client is missing or the
      call raised. */
  function CecileReply(configured: bool, call: LlmCall): (r: CecileResult)
    ensures r.success <==> configured && call.Answered?
    ensures r.response.None? <==> !r.success
    ensures r.error.None? <==> r.success
    ensures r.success ==> r.response == Some(Strip(call.text.GetOr("")))
    ensures configured && call.Raised? ==> r.error == Some(call.error)
  {
    if !configured then
      CecileResult(false, None, Some("API Gemini non configur\U{E9}e. Veuillez configurer la cl\U{E9} GOOGLE_API_KEY."))
    else match call
      case Raised(e) => CecileResult(false, None, Some(e))
      case Answered(text) => CecileResult(true, Some(Strip(text.GetOr(""))), None)
  }
}

=== FILE: intent.dfy ===
/** The transaction intent the language model returns as JSON, once decoded.
    A key the answer leaves out reads as `None` through `.get`, so it is
    `JNull` here; the one exception is `confidence`, read with the default
    0, so a missing confidence is `JNum(0.0)`. */
module Intents {
  import opened JsonValues

  datatype Details = Details(
    produitNom: Json,
    quantite: Json,
    prixUnitaire: Json,
    montantTotal: Json,
    clientNom: Json,
    description: Json,
    categorie: Json)

  /** `intent.get("details", {})` when the key is absent. */
  const NoDetails: Details := Details(JNull, JNull, JNull, JNull, JNull, JNull, JNull)

  datatype Intent = Intent(hasTransaction: Json, transactionType: Json, details: Details, confidence: Json)

  /** `{"has_transaction": False}`, the answer on every extraction failure. */
  const NoTransaction: Intent := Intent(JBool(false), JNull, NoDetails, JNum(0.0))
}

=== FILE: json.dfy ===
/** The JSON values an LLM answer can carry in its `details` bag, with the
    Python semantics the backend applies to them: truthiness, the
    `isinstance(x, (int, float))` test (which a `bool` passes, since `bool`
    is a subclass of `int`) and the `int()` conversion, which truncates
    toward zero. */
module JsonValues {

  datatype Json = JNull | JStr(s: string) | JNum(n: real) | JBool(b: bool)

  /** Python truthiness: None, "", 0 and False are false. */
  predicate Truthy(j: Json) {
    match j
    case JNull => false
    case JStr(s) => s != ""
    case JNum(n) => n != 0.0
    case JBool(b) => b
  }

  /** `isinstance(j, (int, float))`. */
  predicate IsNumber(j: Json) {
    j.JNum? || j.JBool?
  }

  /** The numeric value Python compares with, `True` being 1. */
  function NumValue(j: Json): real
    requires IsNumber(j)
  {
    match j
    case JNum(n) => n
    case JBool(b) => if b then 1.0 else 0.0
  }

  /** Python's `int(x)` on a number: truncation toward zero. */
  function Trunc(r: real): (k: int)
    ensures r >= 0.0 ==> k as real <= r < k as real + 1.0
    ensures r < 0.0 ==> k as real - 1.0 < r <= k as real
  {
    if r >= 0.0 then r.Floor else -((-r).Floor)
  }

  /** A truthy number compared against a minimum, then truncated, never
      falls under the minimum when the minimum is a whole number. */
  lemma TruncKeepsMinimum(j: Json, min: int)
    requires IsNumber(j) && NumValue(j) >= min as real && min >= 0
    ensures Trunc(NumValue(j)) >= min
  {
  }
}

=== FILE: ledger.dfy ===
/** The manual bookkeeping handlers of Backend/main.py over one shop's rows:
    products, sales, expenses with their frequent-amount buckets, debts with
    their payments, and the chat and voice logs the quotas count. Each table
    is a sequence and a row's id is its index; rows are only ever
    soft-deleted, so an id never moves and the order of a table is the order
    in which its rows were inserted. */
module Bookkeeping {
  import opened Wrappers
  import opened JsonValues
  import opened Text
  import opened Schemas
  import opened Gemini

  datatype Product = Product(nom: string, prixUnitaire: int, stock: int, seuilAlerte: int, active: bool, deleted: bool)
  datatype Sale = Sale(produitId: nat, quantite: int, prixUnitaire: int, montantTotal: int, deleted: bool)
  datatype Expense = Expense(categorie: string, montant: int, description: string)
  datatype FrequentExpense = FrequentExpense(categorie: string, bucket: int, usageCount: int)
  datatype DebtStatus = EnCours | Soldee
  datatype Debt = Debt(nomClient: string, telephoneClient: Option<string>, montantInitial: int, montantRestant: int, statut: DebtStatus, deleted: bool)
  datatype Payment = Payment(detteId: nat, montantPaye: int)
  datatype ChatLog = ChatLog(at: int, botResponse: string, success: bool)
  datatype VoiceLog = VoiceLog(at: int, success: bool)

  /** Why a request was refused: a 422 naming the fields whose bounds it
      breaks, or an `HTTPException` with its status and detail. */
  datatype Rejection = Invalid(fields: seq<string>) | Http(status: int, detail: string)

  const ProductNotFound: Rejection := Http(404, "Produit non trouvé")
  const SaleNotFound: Rejection := Http(404, "Vente non trouvée")
  const DebtNotFound: Rejection := Http(404, "Dette non trouvée")
  const InsufficientStock: Rejection := Http(400, "Stock insuffisant")
  const DuplicateProduct: Rejection := Http(409, "Un produit avec ce nom existe déjà")
  const OverPayment: Rejection := Http(400, "Montant supérieur à la dette restante")
  const VoiceQuotaExhausted: Rejection := Http(403, "Quota vocal épuisé ce mois-ci")
  /** An exception the handler does not catch becomes a 500. */
  const ServerError: Rejection := Http(500, "Internal Server Error")

  /** The whole stored state, as one value. */
  datatype Tables = Tables(
    products: seq<Product>,
    sales: seq<Sale>,
    expenses: seq<Expense>,
    frequent: seq<FrequentExpense>,
    debts: seq<Debt>,
    payments: seq<Payment>,
    chatLogs: seq<ChatLog>,
    voiceLogs: seq<VoiceLog>)

  // ------------------------------------------------------------ row checks

  /** The rows a filter on `deleted_at == None` finds by id. */
  predicate LiveProduct(ps: seq<Product>, id: nat) {
    id < |ps| && !ps[id].deleted
  }

  predicate NameTaken(ps: seq<Product>, nom: string) {
    exists i :: 0 <= i < |ps| && !ps[i].deleted && ps[i].nom == nom
  }

  predicate SaleOk(s: Sale, productCount: nat) {
    s.quantite >= 1 && s.montantTotal == s.quantite * s.prixUnitaire && s.produitId < productCount
  }

  predicate DebtOk(d: Debt) {
    0 <= d.montantRestant <= d.montantInitial && (d.statut == Soldee <==> d.montantRestant == 0)
  }

  predicate BucketOk(b: int) {
    b >= 500 && b % 500 == 0
  }

  predicate RowFor(r: FrequentExpense, categorie: string, bucket: int) {
    r.categorie == categorie && r.bucket == bucket
  }

  /** At most one frequent-expense row per (categorie, bucket), each used at
      least once, each bucket a multiple of 500 from 500 up. */
  predicate FrequentOk(rows: seq<FrequentExpense>) {
    (forall i :: 0 <= i < |rows| ==> rows[i].usageCount >= 1 && BucketOk(rows[i].bucket))
    && (forall i, j :: 0 <= i < j < |rows| ==> !RowFor(rows[j], rows[i].categorie, rows[i].bucket))
  }

  // ------------------------------------------------------ expense buckets

  /** `(montant // 500) * 500`, raised to 500 when smaller. */
  function Bucket(montant: int): (b: int)
    ensures BucketOk(b)
    ensures montant >= 500 ==> b <= montant < b + 500
    ensures montant < 500 ==> b == 500
  {
    var floor := (montant / 500) * 500;
    if floor < 500 then 500 else floor
  }

  /** The first row for (categorie, bucket), as `.first()` finds it. */
  function FindRow(rows: seq<FrequentExpense>, categorie: string, bucket: int): (k: Option<nat>)
    ensures k.Some? ==>
      && k.value < |rows| && RowFor(rows[k.value], categorie, bucket)
      && forall j :: 0 <= j < k.value ==> !RowFor(rows[j], categorie, bucket)
    ensures k.None? ==> forall j :: 0 <= j < |rows| ==> !RowFor(rows[j], categorie, bucket)
  {
    if rows == [] then None
    else if RowFor(rows[0], categorie, bucket) then Some(0)
    else match FindRow(rows[1..], categorie, bucket)
      case None => None
      case Some(k) => Some(k + 1)
  }

  /** The frequent-expense table after one expense: the row for
      (categorie, bucket) counts one more use, or a row with one use is
      added. */
  function Upserted(rows: seq<FrequentExpense>, categorie: string, bucket: int): seq<FrequentExpense> {
    match FindRow(rows, categorie, bucket)
    case Some(k) => rows[k := rows[k].(usageCount := rows[k].usageCount + 1)]
    case None => rows + [FrequentExpense(categorie, bucket, 1)]
  }

  function TotalUsage(rows: seq<FrequentExpense>): int {
    if rows == [] then 0 else TotalUsage(rows[..|rows| - 1]) + rows[|rows| - 1].usageCount
  }

  lemma {:induction false} TotalUsageUpdate(rows: seq<FrequentExpense>, k: nat, r: FrequentExpense)
    requires k < |rows|
    ensures TotalUsage(rows[k := r]) == TotalUsage(rows) - rows[k].usageCount + r.usageCount
    decreases |rows|
  {
    var n := |rows|;
    if k == n - 1 {
      assert rows[k := r][..n - 1] == rows[..n - 1];
    } else {
      assert rows[k := r][..n - 1] == rows[..n - 1][k := r];
      TotalUsageUpdate(rows[..n - 1], k, r);
    }
  }

  /** One expense adds exactly one use to the table. */
  lemma UpsertCountsOnce(rows: seq<FrequentExpense>, categorie: string, bucket: int)
    ensures TotalUsage(Upserted(rows, categorie, bucket)) == TotalUsage(rows) + 1
  {
    match FindRow(rows, categorie, bucket)
    case Some(k) =>
      TotalUsageUpdate(rows, k, rows[k].(usageCount := rows[k].usageCount + 1));
    case None =>
      var r := rows + [FrequentExpense(categorie, bucket, 1)];
      assert r[..|r| - 1] == rows;
  }

  /** After an expense the table has its row, every other row is as it was,
      and there is still at most one row per (categorie, bucket). */
  lemma UpsertKeepsRows(rows: seq<FrequentExpense>, categorie: string, bucket: int)
    requires FrequentOk(rows) && BucketOk(bucket)
    ensures var r := Upserted(rows, categorie, bucket);
      && FrequentOk(r)
      && FindRow(r, categorie, bucket).Some?
      && (forall j :: 0 <= j < |rows| && !RowFor(rows[j], categorie, bucket) ==> r[j] == rows[j])
      && |r| == if FindRow(rows, categorie, bucket).Some? then |rows| else |rows| + 1
  {
    var r := Upserted(rows, categorie, bucket);
    match FindRow(rows, categorie, bucket)
    case Some(k) =>
      assert RowFor(r[k], categorie, bucket);
    case None =>
      assert RowFor(r[|rows|], categorie, bucket);
  }

  // ------------------------------------------------------------ pagination

  /** `offset + limit < total`, as the listings compute `has_next`. */
  function HasNext(offset: int, limit: int, total: int): bool {
    offset + limit < total
  }

  /** How many rows SQLite's `OFFSET offset` skips: a negative offset skips none. */
  function Skipped(offset: int): nat {
    if offset < 0 then 0 else offset
  }

  /** The rows SQLite's `LIMIT limit OFFSET offset` returns: a negative
      limit sets no bound, a negative offset skips nothing. */
  function Page<T>(rows: seq<T>, offset: int, limit: int): (p: seq<T>)
    ensures limit >= 0 ==> |p| <= limit
    ensures p == [] || (Skipped(offset) + |p| <= |rows| && p == rows[Skipped(offset)..Skipped(offset) + |p|])
    ensures limit < 0 && Skipped(offset) <= |rows| ==> Skipped(offset) + |p| == |rows|
    ensures limit >= 0 && Skipped(offset) + limit <= |rows| ==> |p| == limit
  {
    var start := Skipped(offset);
    if start >= |rows| then []
    else if limit < 0 then rows[start..]
    else Take(rows[start..], limit)
  }

  /** `has_next` as it was evidently meant: a row lies beyond the page. */
  function HasNextPage(offset: int, limit: int, total: int): bool {
    limit >= 0 && Skipped(offset) + limit < total
  }

  /** The corrected flag holds exactly when a row lies beyond the page returned,
      whatever integers the query string carries. */
  lemma HasNextPageMeansMoreRows<T>(rows: seq<T>, offset: int, limit: int)
    ensures HasNextPage(offset, limit, |rows|) <==> Skipped(offset) + |Page(rows, offset, limit)| < |rows|
  {
  }

  /** On non-negative parameters the listings' `has_next` is the corrected flag. */
  lemma HasNextOnNaturals(offset: int, limit: int, total: int)
    requires offset >= 0 && limit >= 0
    ensures HasNext(offset, limit, total) == HasNextPage(offset, limit, total)
  {
  }

  /** As written, `limit=-1` lists all five rows yet announces a next page. */
  lemma HasNextNegativeLimit()
    ensures var rows := [1, 2, 3, 4, 5];
      && Page(rows, 0, -1) == rows
      && HasNext(0, -1, |rows|)
      && !HasNextPage(0, -1, |rows|)
  {
  }

  /** As written, `offset=-3` lists the first rows yet counts them as skipped. */
  lemma HasNextNegativeOffset()
    ensures var rows := [1, 2, 3, 4, 5];
      && Page(rows, -3, 5) == rows
      && HasNext(-3, 5, |rows|)
      && !HasNextPage(-3, 5, |rows|)
  {
  }

  // ---------------------------------------------------------------- quotas

  const ChatQuotaFree: int := 20
  const ChatQuotaPaid: int := 100
  const VoiceQuotaDefault: int := 50

  /** `CHAT_QUOTA_GRATUIT if plan_type == 'gratuit' else 100`. */
  function ChatQuota(planType: string): (q: int)
    ensures q == 20 <==> planType == "gratuit"
    ensures q == 100 <==> planType != "gratuit"
  {
    if planType == "gratuit" then ChatQuotaFree else ChatQuotaPaid
  }

  /** `features.get("voice_input_quota", 50)`. */
  function VoiceQuota(featureQuota: Option<int>): (q: int)
    ensures featureQuota.None? ==> q == 50
    ensures featureQuota.Some? ==> q == featureQuota.value
  {
    featureQuota.GetOr(VoiceQuotaDefault)
  }

  datatype QuotaCheck = Exhausted | Allowed(remaining: int)

  /** A request is refused once `count >= quota`; otherwise the answer
      reports `quota - count - 1` left, the request itself included. */
  function CheckQuota(quota: int, count: nat): (c: QuotaCheck)
    ensures c.Exhausted? <==> count >= quota
    ensures c.Allowed? ==> c.remaining >= 0 && c.remaining + count + 1 == quota
  {
    if count >= quota then Exhausted else Allowed(quota - count - 1)
  }

  /** Each allowed request leaves one fewer, and the one after the last
      allowed request is refused. */
  lemma QuotaCountsDown(quota: int, count: nat)
    requires CheckQuota(quota, count).Allowed?
    ensures CheckQuota(quota, count + 1).Exhausted? <==> CheckQuota(quota, count).remaining == 0
    ensures CheckQuota(quota, count + 1).Allowed? ==>
      CheckQuota(quota, count + 1).remaining == CheckQuota(quota, count).remaining - 1
  {
  }

  /** The monthly count of a log table: its rows stamped at or after
      `since`. */
  function CountSince<T>(logs: seq<T>, stamp: T -> int, since: int): (n: nat)
    ensures n <= |logs|
  {
    if logs == [] then 0
    else CountSince(logs[..|logs| - 1], stamp, since) + (if stamp(logs[|logs| - 1]) >= since then 1 else 0)
  }

  /** A new row adds one to the count when it is stamped in the period and
      nothing otherwise. */
  lemma CountSinceAppend<T>(logs: seq<T>, x: T, stamp: T -> int, since: int)
    ensures stamp(x) >= since ==> CountSince(logs + [x], stamp, since) == CountSince(logs, stamp, since) + 1
    ensures stamp(x) < since ==> CountSince(logs + [x], stamp, since) == CountSince(logs, stamp, since)
  {
    assert (logs + [x])[..|logs|] == logs;
  }

  /** Rows stamped before the period do not count. */
  lemma {:induction false} CountSinceNone<T>(logs: seq<T>, stamp: T -> int, since: int)
    requires forall k :: 0 <= k < |logs| ==> stamp(logs[k]) < since
    ensures CountSince(logs, stamp, since) == 0
  {
    if logs != [] {
      CountSinceNone(logs[..|logs| - 1], stamp, since);
    }
  }

  /** Rows stamped in the period all count. */
  lemma {:induction false} CountSinceAll<T>(logs: seq<T>, stamp: T -> int, since: int)
    requires forall k :: 0 <= k < |logs| ==> stamp(logs[k]) >= since
    ensures CountSince(logs, stamp, since) == |logs|
  {
    if logs != [] {
      CountSinceAll(logs[..|logs| - 1], stamp, since);
    }
  }

  /** The count of a table whose older rows all precede the period is the
      count of its recent rows alone: last month's use is not charged. */
  lemma {:induction false} CountSinceIgnoresOlder<T>(older: seq<T>, recent: seq<T>, stamp: T -> int, since: int)
    requires forall k :: 0 <= k < |older| ==> stamp(older[k]) < since
    ensures CountSince(older + recent, stamp, since) == CountSince(recent, stamp, since)
  {
    if recent == [] {
      assert older + recent == older;
      CountSinceNone(older, stamp, since);
    } else {
      var init := recent[..|recent| - 1];
      assert older + recent == (older + init) + [recent[|recent| - 1]];
      CountSinceAppend(older + init, recent[|recent| - 1], stamp, since);
      CountSinceIgnoresOlder(older, init, stamp, since);
    }
  }

  function ChatStamp(c: ChatLog): int { c.at }

  function VoiceStamp(v: VoiceLog): int { v.at }

  // --------------------------------------------------------- voice matching

  /** What SQLAlchemy's `Boolean` column takes: `None`, `True`, `False`, or
      a number equal to 0 or 1; anything else raises when the row is flushed. */
  predicate BooleanColumnAccepts(j: Json) {
    match j
    case JNull => true
    case JBool(_) => true
    case JNum(n) => n == 0.0 || n == 1.0
    case JStr(_) => false
  }

  /** `result["produit_nom"].lower()` raises: a truthy success and a truthy
      name that is not text, evaluated only when some active product makes
      the matching loop run. */
  predicate VoiceNameRaises(result: VoiceParse, ps: seq<Product>) {
    Truthy(result.success) && Truthy(result.produitNom) && !result.produitNom.JStr? && ActiveIds(ps) != []
  }

  /** The ids of active, non-deleted products, in table order. */
  function ActiveIds(ps: seq<Product>): (ids: seq<nat>)
    ensures forall k :: 0 <= k < |ids| ==> ids[k] < |ps| && ps[ids[k]].active && !ps[ids[k]].deleted
    ensures forall i :: 0 <= i < |ps| && ps[i].active && !ps[i].deleted ==> i in ids
    ensures forall k, m :: 0 <= k < m < |ids| ==> ids[k] < ids[m]
  {
    if ps == [] then []
    else
      var front := ActiveIds(ps[..|ps| - 1]);
      var last := |ps| - 1;
      assert forall k :: 0 <= k < |front| ==> front[k] < last;
      if ps[last].active && !ps[last].deleted then front + [last] else front
  }

  /** The loop of `parse_voice` over the product list: the first product
      whose name equals the recognised name once both are lower-cased. */
  method FirstExactMatch(names: seq<string>, wanted: string) returns (m: Option<nat>)
    ensures m.Some? ==> m.value < |names| && Lower(names[m.value]) == Lower(wanted)
    ensures m.Some? ==> forall j :: 0 <= j < m.value ==> Lower(names[j]) != Lower(wanted)
    ensures m.None? ==> forall j :: 0 <= j < |names| ==> Lower(names[j]) != Lower(wanted)
  {
    var i := 0;
    while i < |names|
      invariant 0 <= i <= |names|
      invariant forall j :: 0 <= j < i ==> Lower(names[j]) != Lower(wanted)
    {
      if Lower(names[i]) == Lower(wanted) {
        return Some(i);
      }
      i := i + 1;
    }
    return None;
  }

  datatype VoiceReply = VoiceReply(success: bool, produit: Option<nat>, quantite: Json, prixUnitaire: Json, confiance: Json, quotaRestant: int)

  /** The product `parse_voice` offers: the first active, non-deleted
      product whose lower-cased name is the lower-cased name heard. */
  method MatchActive(ps: seq<Product>, wanted: string) returns (m: Option<nat>)
    ensures m.Some? ==>
      && m.value < |ps| && ps[m.value].active && !ps[m.value].deleted
      && Lower(ps[m.value].nom) == Lower(wanted)
      && forall j :: 0 <= j < m.value && ps[j].active && !ps[j].deleted ==> Lower(ps[j].nom) != Lower(wanted)
    ensures m.None? ==>
      forall j :: 0 <= j < |ps| && ps[j].active && !ps[j].deleted ==> Lower(ps[j].nom) != Lower(wanted)
  {
    var ids := ActiveIds(ps);
    var names := seq(|ids|, k requires 0 <= k < |ids| => ps[ids[k]].nom);
    var found := FirstExactMatch(names, wanted);
    if found.Some? {
      m := Some(ids[found.value]);
      forall j | 0 <= j < ids[found.value] && ps[j].active && !ps[j].deleted
        ensures Lower(ps[j].nom) != Lower(wanted)
      {
        var k :| 0 <= k < |ids| && ids[k] == j;
        assert k < found.value;
        assert names[k] == ps[j].nom;
      }
    } else {
      m := None;
      forall j | 0 <= j < |ps| && ps[j].active && !ps[j].deleted
        ensures Lower(ps[j].nom) != Lower(wanted)
      {
        var k :| 0 <= k < |ids| && ids[k] == j;
        assert names[k] == ps[j].nom;
      }
    }
  }

  /** Stock on hand plus units sold by live sales. */
  function Accounted(ps: seq<Product>, sales: seq<Sale>, pid: nat): int
    requires pid < |ps|
  {
    ps[pid].stock + Sold(sales, pid)
  }

  // ------------------------------------------------------------ sold units

  /** The units a sale row takes out of product `pid`'s stock while live. */
  function LiveUnits(s: Sale, pid: nat): int {
    if s.produitId == pid && !s.deleted then s.quantite else 0
  }

  /** Units of product `pid` sold by the live sales. */
  function Sold(sales: seq<Sale>, pid: nat): int {
    if sales == [] then 0 else Sold(sales[..|sales| - 1], pid) + LiveUnits(sales[|sales| - 1], pid)
  }

  lemma SoldAppend(sales: seq<Sale>, s: Sale, pid: nat)
    ensures Sold(sales + [s], pid) == Sold(sales, pid) + LiveUnits(s, pid)
  {
    assert (sales + [s])[..|sales|] == sales;
  }

  lemma {:induction false} SoldUpdate(sales: seq<Sale>, k: nat, s: Sale, pid: nat)
    requires k < |sales|
    ensures Sold(sales[k := s], pid) == Sold(sales, pid) - LiveUnits(sales[k], pid) + LiveUnits(s, pid)
    decreases |sales|
  {
    var n := |sales|;
    if k == n - 1 {
      assert sales[k := s][..n - 1] == sales[..n - 1];
    } else {
      assert sales[k := s][..n - 1] == sales[..n - 1][k := s];
      SoldUpdate(sales[..n - 1], k, s, pid);
    }
  }

  // ---------------------------------------------------------------- ledger

  class Ledger {
    var products: seq<Product>
    var sales: seq<Sale>
    var expenses: seq<Expense>
    var frequent: seq<FrequentExpense>
    var debts: seq<Debt>
    var payments: seq<Payment>
    var chatLogs: seq<ChatLog>
    var voiceLogs: seq<VoiceLog>

    function Snapshot(): Tables
      reads this
    {
      Tables(products, sales, expenses, frequent, debts, payments, chatLogs, voiceLogs)
    }

    /** Stock never negative; every sale priced at quantity times unit price
        and pointing at a product; every debt between 0 and its initial
        amount and settled exactly at 0; every payment for a debt; the
        frequent-expense table keyed by (categorie, bucket). */
    ghost predicate Valid()
      reads this
    {
      && (forall i :: 0 <= i < |products| ==> products[i].stock >= 0)
      && (forall i :: 0 <= i < |sales| ==> SaleOk(sales[i], |products|))
      && (forall i :: 0 <= i < |debts| ==> DebtOk(debts[i]))
      && (forall i :: 0 <= i < |payments| ==> payments[i].detteId < |debts| && payments[i].montantPaye >= 1)
      && FrequentOk(frequent)
    }

    constructor()
      ensures Valid()
      ensures Snapshot() == Tables([], [], [], [], [], [], [], [])
    {
      products, sales, expenses, frequent := [], [], [], [];
      debts, payments, chatLogs, voiceLogs := [], [], [], [];
    }

    /** `create_produit`: 409 when a live product already has the name;
        otherwise a new active product. An absent `quantite_stock` or
        `seuil_alerte` takes its schema default, 0 and 5. */
    method CreateProduct(nom: string, prixUnitaire: int, quantiteStock: Option<int>, seuilAlerte: Option<int>)
      returns (r: Result<nat, Rejection>)
      requires Valid()
      modifies this
      ensures Valid()
      ensures var stock := quantiteStock.GetOr(0);
        var seuil := seuilAlerte.GetOr(5);
        var errs := FieldErrors(ProduitCreate(nom, prixUnitaire, stock, seuil));
        if errs != [] then (r == Failure(Invalid(errs)) && Snapshot() == old(Snapshot()))
        else if NameTaken(old(products), nom) then (r == Failure(DuplicateProduct) && Snapshot() == old(Snapshot()))
        else (r == Success(|old(products)|)
          && Snapshot() == old(Snapshot()).(products := old(products) + [Product(nom, prixUnitaire, stock, seuil, true, false)]))
    {
      var stock := quantiteStock.GetOr(0);
      var seuil := seuilAlerte.GetOr(5);
      var errs := FieldErrors(ProduitCreate(nom, prixUnitaire, stock, seuil));
      if errs != [] {
        return Failure(Invalid(errs));
      }
      if NameTaken(products, nom) {
        return Failure(DuplicateProduct);
      }
      products := products + [Product(nom, prixUnitaire, stock, seuil, true, false)];
      r := Success(|products| - 1);
    }

    /** `delete_produit`: a live product is soft-deleted and deactivated. */
    method DeleteProduct(id: nat) returns (r: Result<bool, Rejection>)
      requires Valid()
      modifies this
      ensures Valid()
      ensures !LiveProduct(old(products), id) ==> r == Failure(ProductNotFound) && Snapshot() == old(Snapshot())
      ensures LiveProduct(old(products), id) ==>
        && r == Success(true)
        && Snapshot() == old(Snapshot()).(products := old(products)[id := old(products)[id].(deleted := true, active := false)])
    {
      if !LiveProduct(products, id) {
        return Failure(ProductNotFound);
      }
      products := products[id := products[id].(deleted := true, active := false)];
      r := Success(true);
    }

    /** `update_stock`: stock moves by `ajustement` unless it would go below
        zero, in which case nothing changes. */
    method UpdateStock(id: nat, ajustement: int) returns (r: Result<int, Rejection>)
      requires Valid()
      modifies this
      ensures Valid()
      ensures !LiveProduct(old(products), id) ==> r == Failure(ProductNotFound) && Snapshot() == old(Snapshot())
      ensures LiveProduct(old(products), id) && old(products[id].stock) + ajustement < 0 ==>
        r == Failure(InsufficientStock) && Snapshot() == old(Snapshot())
      ensures LiveProduct(old(products), id) && old(products[id].stock) + ajustement >= 0 ==>
        r == Success(old(products[id].stock) + ajustement)
        && Snapshot() == old(Snapshot()).(products := old(products)[id := old(products)[id].(stock := old(products[id].stock) + ajustement)])
    {
      if !LiveProduct(products, id) {
        return Failure(ProductNotFound);
      }
      var nouvelle := products[id].stock + ajustement;
      if nouvelle < 0 {
        return Failure(InsufficientStock);
      }
      products := products[id := products[id].(stock := nouvelle)];
      r := Success(nouvelle);
    }

    /** `create_vente`: a live product with enough stock gives a sale at its
        current price, and its stock falls by the quantity sold. The units
        of every product, on hand plus sold, stay the same. */
    method CreateSale(produitId: nat, quantite: int) returns (r: Result<SaleReceipt, Rejection>)
      requires Valid()
      modifies this
      ensures Valid()
      ensures quantite < 1 ==> r == Failure(Invalid(["quantite"])) && Snapshot() == old(Snapshot())
      ensures quantite >= 1 && !LiveProduct(old(products), produitId) ==>
        r == Failure(ProductNotFound) && Snapshot() == old(Snapshot())
      ensures quantite >= 1 && LiveProduct(old(products), produitId) && old(products[produitId].stock) < quantite ==>
        r == Failure(InsufficientStock) && Snapshot() == old(Snapshot())
      ensures r.Success? <==> quantite >= 1 && LiveProduct(old(products), produitId) && old(products[produitId].stock) >= quantite
      ensures r.Success? ==>
        var p := old(products[produitId]);
        && r.value == SaleReceipt(|old(sales)|, quantite * p.prixUnitaire, p.stock - quantite)
        && Snapshot() == old(Snapshot()).(
             products := old(products)[produitId := p.(stock := p.stock - quantite)],
             sales := old(sales) + [Sale(produitId, quantite, p.prixUnitaire, quantite * p.prixUnitaire, false)])
      ensures |products| == |old(products)|
      ensures forall pid :: 0 <= pid < |products| ==> Accounted(products, sales, pid) == old(Accounted(products, sales, pid))
    {
      if quantite < 1 {
        return Failure(Invalid(["quantite"]));
      }
      if !LiveProduct(products, produitId) {
        return Failure(ProductNotFound);
      }
      var p := products[produitId];
      if p.stock < quantite {
        return Failure(InsufficientStock);
      }
      var montant := p.prixUnitaire * quantite;
      var s := Sale(produitId, quantite, p.prixUnitaire, montant, false);
      forall pid | 0 <= pid < |products|
        ensures Sold(sales + [s], pid) == Sold(sales, pid) + LiveUnits(s, pid)
      {
        SoldAppend(sales, s, pid);
      }
      products := products[produitId := p.(stock := p.stock - quantite)];
      sales := sales + [s];
      r := Success(SaleReceipt(|sales| - 1, montant, p.stock - quantite));
    }

    /** `delete_vente`: a live sale is soft-deleted and its quantity goes back
        to its product (found by id, deleted or not). A second delete of the
        same sale is a 404, so stock comes back once. */
    method DeleteSale(venteId: nat) returns (r: Result<int, Rejection>)
      requires Valid()
      modifies this
      ensures Valid()
      ensures (venteId >= |old(sales)| || old(sales)[venteId].deleted) ==> r == Failure(SaleNotFound) && Snapshot() == old(Snapshot())
      ensures venteId < |old(sales)| && !old(sales)[venteId].deleted ==>
        var s := old(sales)[venteId];
        var p := old(products)[s.produitId];
        && r == Success(p.stock + s.quantite)
        && Snapshot() == old(Snapshot()).(
             products := old(products)[s.produitId := p.(stock := p.stock + s.quantite)],
             sales := old(sales)[venteId := s.(deleted := true)])
      ensures |products| == |old(products)|
      ensures forall pid :: 0 <= pid < |products| ==> Accounted(products, sales, pid) == old(Accounted(products, sales, pid))
    {
      if venteId >= |sales| || sales[venteId].deleted {
        return Failure(SaleNotFound);
      }
      var s := sales[venteId];
      var p := products[s.produitId];
      forall pid | 0 <= pid < |products|
        ensures Sold(sales[venteId := s.(deleted := true)], pid) == Sold(sales, pid) - LiveUnits(s, pid)
      {
        SoldUpdate(sales, venteId, s.(deleted := true), pid);
      }
      products := products[s.produitId := p.(stock := p.stock + s.quantite)];
      sales := sales[venteId := s.(deleted := true)];
      r := Success(p.stock + s.quantite);
    }

    /** The expense row alone, as the chat auto-record writes it. */
    method AddExpense(categorie: string, montant: int, description: string) returns (id: nat)
      requires Valid()
      modifies this
      ensures Valid()
      ensures id == |old(expenses)|
      ensures Snapshot() == old(Snapshot()).(expenses := old(expenses) + [Expense(categorie, montant, description)])
    {
      expenses := expenses + [Expense(categorie, montant, description)];
      id := |expenses| - 1;
    }

    /** One line of the chat log, which no invariant mentions. */
    method LogChat(entry: ChatLog)
      requires Valid()
      modifies this
      ensures Valid()
      ensures Snapshot() == old(Snapshot()).(chatLogs := old(chatLogs) + [entry])
    {
      chatLogs := chatLogs + [entry];
    }

    /** One more use of the (categorie, bucket) row of the frequent
        expenses, which is created on first use. */
    method CountUse(categorie: string, bucket: int)
      requires Valid() && BucketOk(bucket)
      modifies this
      ensures Valid()
      ensures Snapshot() == old(Snapshot()).(frequent := Upserted(old(frequent), categorie, bucket))
      ensures TotalUsage(frequent) == old(TotalUsage(frequent)) + 1
    {
      UpsertKeepsRows(frequent, categorie, bucket);
      UpsertCountsOnce(frequent, categorie, bucket);
      frequent := Upserted(frequent, categorie, bucket);
    }

    /** `create_depense`: the expense row, then one more use of its
        (categorie, amount bucket) row. */
    method CreateExpense(categorie: string, montant: int, description: string) returns (r: Result<nat, Rejection>)
      requires Valid()
      modifies this
      ensures Valid()
      ensures var errs := FieldErrors(DepenseCreate(montant, description));
        if errs != [] then (r == Failure(Invalid(errs)) && Snapshot() == old(Snapshot()))
        else (r == Success(|old(expenses)|)
          && Snapshot() == old(Snapshot()).(
               expenses := old(expenses) + [Expense(categorie, montant, description)],
               frequent := Upserted(old(frequent), categorie, Bucket(montant))))
      ensures r.Success? ==> TotalUsage(frequent) == old(TotalUsage(frequent)) + 1
    {
      var errs := FieldErrors(DepenseCreate(montant, description));
      if errs != [] {
        return Failure(Invalid(errs));
      }
      var id := AddExpense(categorie, montant, description);
      CountUse(categorie, Bucket(montant));
      r := Success(id);
    }

    /** `create_dette`: a debt starts in progress with all of it still owed. */
    method CreateDebt(nomClient: string, telephoneClient: Option<string>, montantInitial: int) returns (r: Result<nat, Rejection>)
      requires Valid()
      modifies this
      ensures Valid()
      ensures var errs := FieldErrors(DetteCreate(nomClient, montantInitial));
        if errs != [] then (r == Failure(Invalid(errs)) && Snapshot() == old(Snapshot()))
        else (r == Success(|old(debts)|)
          && Snapshot() == old(Snapshot()).(
               debts := old(debts) + [Debt(nomClient, telephoneClient, montantInitial, montantInitial, EnCours, false)]))
    {
      var errs := FieldErrors(DetteCreate(nomClient, montantInitial));
      if errs != [] {
        return Failure(Invalid(errs));
      }
      debts := debts + [Debt(nomClient, telephoneClient, montantInitial, montantInitial, EnCours, false)];
      r := Success(|debts| - 1);
    }

    /** `payer_dette`: a payment no larger than what is owed lowers it by
        exactly that much; the debt is settled when nothing is left. */
    method PayDebt(detteId: nat, montantPaye: int) returns (r: Result<PaymentReceipt, Rejection>)
      requires Valid()
      modifies this
      ensures Valid()
      ensures montantPaye < 1 ==> r == Failure(Invalid(["montant_paye"])) && Snapshot() == old(Snapshot())
      ensures montantPaye >= 1 && (detteId >= |old(debts)| || old(debts)[detteId].deleted) ==>
        r == Failure(DebtNotFound) && Snapshot() == old(Snapshot())
      ensures (montantPaye >= 1 && detteId < |old(debts)| && !old(debts)[detteId].deleted
        && montantPaye > old(debts)[detteId].montantRestant) ==>
        r == Failure(OverPayment) && Snapshot() == old(Snapshot())
      ensures r.Success? ==>
        var d := old(debts)[detteId];
        var left := d.montantRestant - montantPaye;
        var statut := if left == 0 then Soldee else d.statut;
        && montantPaye >= 1 && !d.deleted && 0 <= left < d.montantRestant
        && r.value == PaymentReceipt(left, statut, |old(payments)|)
        && Snapshot() == old(Snapshot()).(
             debts := old(debts)[detteId := d.(montantRestant := left, statut := statut)],
             payments := old(payments) + [Payment(detteId, montantPaye)])
      ensures r.Success? <==>
        && montantPaye >= 1 && detteId < |old(debts)| && !old(debts)[detteId].deleted
        && montantPaye <= old(debts)[detteId].montantRestant
      ensures r.Failure? ==> Snapshot() == old(Snapshot())
      ensures r.Success? ==>
        && (debts[detteId].statut == Soldee <==> debts[detteId].montantRestant == 0)
        && debts[detteId].montantInitial == old(debts)[detteId].montantInitial
    {
      if montantPaye < 1 {
        return Failure(Invalid(["montant_paye"]));
      }
      if detteId >= |debts| || debts[detteId].deleted {
        return Failure(DebtNotFound);
      }
      var d := debts[detteId];
      if montantPaye > d.montantRestant {
        return Failure(OverPayment);
      }
      var left := d.montantRestant - montantPaye;
      var statut := if left == 0 then Soldee else d.statut;
      debts := debts[detteId := d.(montantRestant := left, statut := statut)];
      payments := payments + [Payment(detteId, montantPaye)];
      r := Success(PaymentReceipt(left, statut, |payments| - 1));
    }

    /** `parse_voice`: refused once this month's voice logs reach the quota;
        otherwise the answer is logged, and a successful answer naming a
        product is matched against the active products by lower-cased
        equality. A `success` the Boolean column rejects fails the commit,
        so nothing is logged; a product name that is not text makes
        `.lower()` raise after the log is written, once there is an active
        product to compare it with. */
    method ParseVoice(transcript: string, featureQuota: Option<int>, monthStart: int, now: int, result: VoiceParse)
      returns (r: Result<VoiceReply, Rejection>)
      requires Valid()
      modifies this
      ensures Valid()
      ensures |transcript| > 500 ==> r == Failure(Invalid(["transcript"])) && Snapshot() == old(Snapshot())
      ensures |transcript| <= 500 && CountSince(old(voiceLogs), VoiceStamp, monthStart) >= VoiceQuota(featureQuota) ==>
        r == Failure(VoiceQuotaExhausted) && Snapshot() == old(Snapshot())
      ensures |transcript| <= 500 && CountSince(old(voiceLogs), VoiceStamp, monthStart) < VoiceQuota(featureQuota) &&
              !BooleanColumnAccepts(result.success) ==>
        r == Failure(ServerError) && Snapshot() == old(Snapshot())
      ensures |transcript| <= 500 && CountSince(old(voiceLogs), VoiceStamp, monthStart) < VoiceQuota(featureQuota) &&
              BooleanColumnAccepts(result.success) ==>
        Snapshot() == old(Snapshot()).(voiceLogs := old(voiceLogs) + [VoiceLog(now, Truthy(result.success))])
      ensures r.Success? <==>
        && |transcript| <= 500 && CountSince(old(voiceLogs), VoiceStamp, monthStart) < VoiceQuota(featureQuota)
        && BooleanColumnAccepts(result.success) && !VoiceNameRaises(result, old(products))
      ensures r.Success? ==>
        && r.value.quotaRestant == VoiceQuota(featureQuota) - CountSince(old(voiceLogs), VoiceStamp, monthStart) - 1
        && r.value.quotaRestant >= 0
        && r.value.success == Truthy(result.success)
        && r.value.quantite == result.quantite
        && r.value.prixUnitaire == result.prixUnitaire
        && r.value.confiance == result.confiance
        && (r.value.produit.Some? ==> Truthy(result.success) && Truthy(result.produitNom))
      ensures r.Success? && r.value.produit.Some? ==>
        var i := r.value.produit.value;
        && i < |products| && products[i].active && !products[i].deleted
        && result.produitNom.JStr? && Lower(products[i].nom) == Lower(result.produitNom.s)
        && forall j :: 0 <= j < i && products[j].active && !products[j].deleted ==> Lower(products[j].nom) != Lower(result.produitNom.s)
      ensures r.Success? && r.value.produit.None? && Truthy(result.success) && Truthy(result.produitNom) ==>
        && (result.produitNom.JStr? ==>
              forall j :: 0 <= j < |products| && products[j].active && !products[j].deleted ==> Lower(products[j].nom) != Lower(result.produitNom.s))
        && (!result.produitNom.JStr? ==> ActiveIds(products) == [])
      ensures r.Failure? && r.error == ServerError <==>
        && |transcript| <= 500 && CountSince(old(voiceLogs), VoiceStamp, monthStart) < VoiceQuota(featureQuota)
        && (!BooleanColumnAccepts(result.success) || VoiceNameRaises(result, old(products)))
    {
      if |transcript| > 500 {
        return Failure(Invalid(["transcript"]));
      }
      var quota := VoiceQuota(featureQuota);
      var count := CountSince(voiceLogs, VoiceStamp, monthStart);
      if count >= quota {
        return Failure(VoiceQuotaExhausted);
      }
      if !BooleanColumnAccepts(result.success) {
        return Failure(ServerError);
      }
      voiceLogs := voiceLogs + [VoiceLog(now, Truthy(result.success))];
      var produit: Option<nat> := None;
      if Truthy(result.success) && Truthy(result.produitNom) {
        if result.produitNom.JStr? {
          produit := MatchActive(products, result.produitNom.s);
        } else if ActiveIds(products) != [] {
          return Failure(ServerError);
        }
      }
      r := Success(VoiceReply(Truthy(result.success), produit, result.quantite, result.prixUnitaire, result.confiance, quota - count - 1));
    }
  }

  datatype SaleReceipt = SaleReceipt(venteId: nat, montantTotal: int, stockRestant: int)
  datatype PaymentReceipt = PaymentReceipt(nouveauSolde: int, statut: DebtStatus, paiementId: nat)
}

=== FILE: lockout.dfy ===
/** The PIN lockout of `login` (Backend/main.py): a shop whose lock is still
    running is refused before its PIN is looked at; each wrong PIN counts one
    more failure and, from the third failure on, locks the shop for 15
    minutes; a right PIN clears both. Times are whole seconds. Finding the
    shop by telephone is not part of this model: the method runs on the
    shop found. */
module Lockout {
  import opened Wrappers

  const LockSeconds: int := 15 * 60
  const MaxFailures: int := 3

  datatype LockState = LockState(failedAttempts: int, lockedUntil: Option<int>)

  /** 423 while locked, 401 on a wrong PIN, a session on a right one. */
  datatype LoginOutcome = Locked | WrongPin | LoggedIn

  /** `locked_until and locked_until > now`. */
  predicate IsLocked(s: LockState, now: int) {
    s.lockedUntil.Some? && s.lockedUntil.value > now
  }

  /** One login attempt at time `now`. */
  function LoginStep(s: LockState, now: int, pinOk: bool): (r: (LoginOutcome, LockState))
    ensures IsLocked(s, now) <==> r.0 == Locked
    ensures r.0 == Locked ==> r.1 == s
    ensures r.0 == LoggedIn <==> !IsLocked(s, now) && pinOk
    ensures r.0 == LoggedIn ==> r.1 == LockState(0, None)
    ensures r.0 == WrongPin ==> r.1.failedAttempts == s.failedAttempts + 1
    ensures r.0 == WrongPin ==>
      (r.1.lockedUntil == Some(now + LockSeconds) <==> s.failedAttempts + 1 >= MaxFailures)
    ensures r.0 == WrongPin && s.failedAttempts + 1 < MaxFailures ==> r.1.lockedUntil == s.lockedUntil
  {
    if IsLocked(s, now) then (Locked, s)
    else if !pinOk then
      var failed := s.failedAttempts + 1;
      (WrongPin, LockState(failed, if failed >= MaxFailures then Some(now + LockSeconds) else s.lockedUntil))
    else (LoggedIn, LockState(0, None))
  }

  /** The state after a run of attempts, all with a wrong PIN, at the given
      times. */
  function WrongRun(s: LockState, times: seq<int>): (r: LockState)
    decreases |times|
  {
    if times == [] then s else WrongRun(LoginStep(s, times[0], false).1, times[1..])
  }

  /** Three wrong PINs in a row from a clean state, none of them refused,
      lock the shop for 15 minutes from the third. */
  lemma ThreeWrongPinsLock(t1: int, t2: int, t3: int)
    ensures var s1 := LoginStep(LockState(0, None), t1, false);
      var s2 := LoginStep(s1.1, t2, false);
      var s3 := LoginStep(s2.1, t3, false);
      && s1.0 == WrongPin && s2.0 == WrongPin && s3.0 == WrongPin
      && s3.1 == LockState(3, Some(t3 + LockSeconds))
  {
  }

  /** While the lock runs even the right PIN is refused, and nothing is
      counted. */
  lemma LockedRefusesEverything(s: LockState, now: int, pinOk: bool)
    requires s.lockedUntil.Some? && now < s.lockedUntil.value
    ensures LoginStep(s, now, pinOk) == (Locked, s)
  {
  }

  /** The failure count is cleared only by a right PIN: once a lock has run
      out, a single wrong PIN locks again for a full 15 minutes. */
  lemma ExpiredLockRelocksAtOnce(s: LockState, now: int)
    requires s.failedAttempts >= MaxFailures && !IsLocked(s, now)
    ensures LoginStep(s, now, false) == (WrongPin, LockState(s.failedAttempts + 1, Some(now + LockSeconds)))
  {
  }

  /** Successive wrong PINs, none refused, count one each. */
  lemma {:induction false} WrongRunCounts(s: LockState, times: seq<int>)
    requires forall k :: 0 <= k < |times| ==> s.lockedUntil.None? || s.lockedUntil.value <= times[k]
    requires s.failedAttempts + |times| < MaxFailures
    ensures WrongRun(s, times) == LockState(s.failedAttempts + |times|, s.lockedUntil)
    decreases |times|
  {
    if times != [] {
      var next := LoginStep(s, times[0], false).1;
      assert next == LockState(s.failedAttempts + 1, s.lockedUntil);
      assert forall k :: 0 <= k < |times[1..]| ==> times[1..][k] == times[k + 1];
      WrongRunCounts(next, times[1..]);
    }
  }

  /** The shop's stored login fields. */
  class Boutique {
    var failedLoginAttempts: int
    var lockedUntil: Option<int>

    function State(): LockState
      reads this
    {
      LockState(failedLoginAttempts, lockedUntil)
    }

    constructor()
      ensures State() == LockState(0, None)
    {
      failedLoginAttempts := 0;
      lockedUntil := None;
    }

    /** `login` on the shop found, with `verify_pin`'s answer as `pinOk`. */
    method Login(now: int, pinOk: bool) returns (outcome: LoginOutcome)
      modifies this
      ensures (outcome, State()) == LoginStep(old(State()), now, pinOk)
    {
      if lockedUntil.Some? && lockedUntil.value > now {
        return Locked;
      }
      if !pinOk {
        failedLoginAttempts := failedLoginAttempts + 1;
        if failedLoginAttempts >= MaxFailures {
          lockedUntil := Some(now + LockSeconds);
        }
        return WrongPin;
      }
      failedLoginAttempts := 0;
      lockedUntil := None;
      return LoggedIn;
    }
  }
}

=== FILE: numerals.dfy ===
/** Decimal numerals: Python's `str(n)` for integers and its inverse on
    digit strings. */
module Numerals {

  predicate IsDigit(c: char) {
    '0' <= c <= '9'
  }

  predicate AllDigits(s: string) {
    forall i :: 0 <= i < |s| ==> IsDigit(s[i])
  }

  function DigitChar(d: nat): (c: char)
    requires d < 10
    ensures IsDigit(c) && c as int - '0' as int == d
  {
    (d + '0' as int) as char
  }

  /** The decimal digits of `n`, most significant first, without leading zeros. */
  function Digits(n: nat): (s: string)
    ensures |s| >= 1 && AllDigits(s)
    ensures s[0] == '0' ==> n == 0
    decreases n
  {
    if n < 10 then [DigitChar(n)] else Digits(n / 10) + [DigitChar(n % 10)]
  }

  /** The number a string of decimal digits denotes. */
  function ValueOf(s: string): nat
    requires AllDigits(s)
  {
    if s == [] then 0 else ValueOf(s[..|s| - 1]) * 10 + (s[|s| - 1] as int - '0' as int)
  }

  lemma {:induction false} DigitsRoundTrip(n: nat)
    ensures ValueOf(Digits(n)) == n
    decreases n
  {
    if n >= 10 {
      var s := Digits(n);
      assert s[..|s| - 1] == Digits(n / 10);
      DigitsRoundTrip(n / 10);
    }
  }

  /** Python's `str(n)` for an integer. */
  function Decimal(n: int): (s: string)
    ensures s != [] && (n < 0 <==> s[0] == '-')
    ensures n >= 0 ==> AllDigits(s) && ValueOf(s) == n
    ensures n < 0 ==> AllDigits(s[1..]) && ValueOf(s[1..]) == -n
  {
    if n < 0 then
      DigitsRoundTrip(-n);
      assert ("-" + Digits(-n))[1..] == Digits(-n);
      "-" + Digits(-n)
    else
      DigitsRoundTrip(n);
      Digits(n)
  }
}

=== FILE: schemas.dfy ===
/** Request validation (Backend/schemas.py): the `Field` bounds of the
    create/request models and the validators of `SignupRequest` and
    `ObjectifCreate`. A request that fails any of them is answered 422
    before a handler runs. Lengths count characters, as Python's `len`. */
module Schemas {
  import opened Numerals

  // ---------------------------------------------------------------- signup

  /** The telephone format the signup form means: a '0' then 8 or 9 digits. */
  predicate ValidTelephone(t: string) {
    (|t| == 9 || |t| == 10) && t[0] == '0' && AllDigits(t)
  }

  /** What `re.match(r'^0[0-9]{8,9}$', t)` accepts as written: Python's `$`
      also matches just before a final "\n", so one trailing newline gets
      through. */
  predicate TelephonePatternAsWritten(t: string) {
    ValidTelephone(t) || (|t| > 0 && t[|t| - 1] == '\n' && ValidTelephone(t[..|t| - 1]))
  }

  /** The pattern as written lets a telephone with a trailing newline through,
      which the intended format rejects. */
  lemma TelephoneTrailingNewline()
    ensures TelephonePatternAsWritten("0701234567\n")
    ensures !ValidTelephone("0701234567\n")
    ensures 8 <= |"0701234567\n"| <= 20
  {
    assert "0701234567\n"[..10] == "0701234567";
  }

  /** `Field(min_length=4, max_length=4)` and `v.isdigit()`. */
  predicate ValidPin(p: string) {
    |p| == 4 && AllDigits(p)
  }

  datatype SignupRequest = SignupRequest(nomBoutique: string, telephone: string, pin: string, pinConfirm: string)

  datatype SignupField = NomBoutique | Telephone | Pin | PinConfirm

  /** The fields pydantic reports for a signup request, in declaration order.
      `pin_confirm` is compared with `pin` only when `pin` itself validated
      (it is then in `values`). */
  function SignupErrors(r: SignupRequest): (errs: seq<SignupField>)
    ensures errs == [] <==>
      && 3 <= |r.nomBoutique| <= 100
      && ValidTelephone(r.telephone)
      && ValidPin(r.pin) && ValidPin(r.pinConfirm) && r.pinConfirm == r.pin
    ensures NomBoutique in errs <==> !(3 <= |r.nomBoutique| <= 100)
    ensures Pin in errs <==> !ValidPin(r.pin)
    ensures Telephone in errs <==> !ValidTelephone(r.telephone)
    ensures PinConfirm in errs <==> |r.pinConfirm| != 4 || (ValidPin(r.pin) && r.pinConfirm != r.pin)
  {
    (if 3 <= |r.nomBoutique| <= 100 then [] else [NomBoutique])
    + (if 8 <= |r.telephone| <= 20 && ValidTelephone(r.telephone) then [] else [Telephone])
    + (if ValidPin(r.pin) then [] else [Pin])
    + (if |r.pinConfirm| == 4 && !(ValidPin(r.pin) && r.pinConfirm != r.pin) then [] else [PinConfirm])
  }

  // ------------------------------------------------------------- objectives

  const ObjectiveTypes: seq<string> := ["journalier", "hebdomadaire", "mensuel"]

  datatype ObjectifCreate = ObjectifCreate(kind: string, montantCible: int, dateDebut: int, dateFin: int)

  datatype ObjectiveCheck = ObjectiveAccepted | ObjectiveInvalid(badType: bool, badAmount: bool) | EndNotAfterStart

  /** The `ObjectifCreate` validators (422), then `create_objectif`'s own
      date check (400). Dates are timestamps. */
  function CheckObjective(o: ObjectifCreate): (c: ObjectiveCheck)
    ensures c.ObjectiveAccepted? <==>
      o.kind in {"journalier", "hebdomadaire", "mensuel"} && o.montantCible >= 10000 && o.dateFin > o.dateDebut
    ensures c.ObjectiveInvalid? ==> (c.badType <==> o.kind !in ObjectiveTypes) && (c.badAmount <==> o.montantCible < 10000)
  {
    if o.kind !in ObjectiveTypes || o.montantCible < 10000 then
      ObjectiveInvalid(o.kind !in ObjectiveTypes, o.montantCible < 10000)
    else if o.dateFin <= o.dateDebut then EndNotAfterStart
    else ObjectiveAccepted
  }

  // -------------------------------------------------------- request bounds

  datatype Request =
    | ProduitCreate(nom: string, prixUnitaire: int, quantiteStock: int, seuilAlerte: int)
    | VenteCreate(quantite: int)
    | DepenseCreate(montant: int, description: string)
    | DetteCreate(nomClient: string, montantInitial: int)
    | PaiementDetteCreate(montantPaye: int)
    | VoiceParseRequest(transcript: string)
    | ChatRequest(message: string)
    | ChatbotRequest(message: string)

  /** The names of the fields whose `Field` bound the request breaks. */
  function FieldErrors(req: Request): (errs: seq<string>)
    ensures req.ProduitCreate? ==> (errs == [] <==>
      2 <= |req.nom| <= 100 && req.prixUnitaire >= 100 && req.quantiteStock >= 0 && req.seuilAlerte >= 0)
    ensures req.VenteCreate? ==> (errs == [] <==> req.quantite >= 1)
    ensures req.DepenseCreate? ==> (errs == [] <==> req.montant >= 100 && |req.description| <= 500)
    ensures req.DetteCreate? ==> (errs == [] <==> 2 <= |req.nomClient| <= 100 && req.montantInitial >= 500)
    ensures req.PaiementDetteCreate? ==> (errs == [] <==> req.montantPaye >= 1)
    ensures req.VoiceParseRequest? ==> (errs == [] <==> |req.transcript| <= 500)
    ensures req.ChatRequest? ==> (errs == [] <==> 1 <= |req.message| <= 500)
    ensures req.ChatbotRequest? ==> (errs == [] <==> 1 <= |req.message| <= 1000)
  {
    match req
    case ProduitCreate(nom, prix, stock, seuil) =>
      (if 2 <= |nom| <= 100 then [] else ["nom"])
      + (if prix >= 100 then [] else ["prix_unitaire"])
      + (if stock >= 0 then [] else ["quantite_stock"])
      + (if seuil >= 0 then [] else ["seuil_alerte"])
    case VenteCreate(q) => if q >= 1 then [] else ["quantite"]
    case DepenseCreate(montant, description) =>
      (if montant >= 100 then [] else ["montant"]) + (if |description| <= 500 then [] else ["description"])
    case DetteCreate(nomClient, montant) =>
      (if 2 <= |nomClient| <= 100 then [] else ["nom_client"]) + (if montant >= 500 then [] else ["montant_initial"])
    case PaiementDetteCreate(m) => if m >= 1 then [] else ["montant_paye"]
    case VoiceParseRequest(t) => if |t| <= 500 then [] else ["transcript"]
    case ChatRequest(m) => if 1 <= |m| <= 500 then [] else ["message"]
    case ChatbotRequest(m) => if 1 <= |m| <= 1000 then [] else ["message"]
  }
}

=== FILE: text.dfy ===
/** String helpers with Python's meaning: `str.strip`, `startswith`,
    `endswith`, slicing `[:n]` and `[-n:]`, `str(int)`, and the ASCII
    lower-casing that SQLite's `lower()` and `LIKE` apply. */
module Text {

  /** The characters for which Python's `str.isspace()` holds. */
  predicate IsSpace(c: char) {
    || ('\t' <= c <= '\r')
    || ('\U{1C}' <= c <= ' ')
    || c == '\U{85}' || c == '\U{A0}' || c == '\U{1680}'
    || ('\U{2000}' <= c <= '\U{200A}')
    || c == '\U{2028}' || c == '\U{2029}' || c == '\U{202F}' || c == '\U{205F}' || c == '\U{3000}'
  }

  /** The number of white-space characters `s` starts with. */
  function LeadingSpaces(s: string): (n: nat)
    ensures n <= |s|
    ensures forall k :: 0 <= k < n ==> IsSpace(s[k])
    ensures n < |s| ==> !IsSpace(s[n])
    decreases |s|
  {
    if |s| > 0 && IsSpace(s[0]) then 1 + LeadingSpaces(s[1..]) else 0
  }

  /** The number of white-space characters `s` ends with. */
  function TrailingSpaces(s: string): (n: nat)
    ensures n <= |s|
    ensures forall k :: |s| - n <= k < |s| ==> IsSpace(s[k])
    ensures n < |s| ==> !IsSpace(s[|s| - n - 1])
    decreases |s|
  {
    if |s| > 0 && IsSpace(s[|s| - 1]) then 1 + TrailingSpaces(s[..|s| - 1]) else 0
  }

  /** `s.strip()`: a slice of `s` that neither starts nor ends with white
      space, and only white space is cut away around it. */
  function Strip(s: string): (r: string)
    ensures |r| <= |s|
    ensures r != [] ==> !IsSpace(r[0]) && !IsSpace(r[|r| - 1])
    ensures LeadingSpaces(s) + |r| <= |s| && r == s[LeadingSpaces(s)..LeadingSpaces(s) + |r|]
    ensures forall k :: 0 <= k < |s| && !(LeadingSpaces(s) <= k < LeadingSpaces(s) + |r|) ==> IsSpace(s[k])
  {
    var a := LeadingSpaces(s);
    var t := s[a..];
    var b := TrailingSpaces(t);
    assert forall k :: a + |t| - b <= k < |s| ==> s[k] == t[k - a];
    t[..|t| - b]
  }

  /** Stripping a string that already neither starts nor ends with white
      space leaves it as it is. */
  lemma StripKeeps(s: string)
    requires s != [] ==> !IsSpace(s[0]) && !IsSpace(s[|s| - 1])
    ensures Strip(s) == s
  {
  }

  predicate StartsWith(s: string, p: string) {
    |p| <= |s| && s[..|p|] == p
  }

  predicate EndsWith(s: string, p: string) {
    |p| <= |s| && s[|s| - |p|..] == p
  }

  /** `p in s` for strings: `p` occurs as a contiguous slice of `s`. */
  predicate Contains(s: string, p: string) {
    exists i :: 0 <= i <= |s| && StartsWith(s[i..], p)
  }

  lemma ContainsMiddle(a: string, p: string, b: string)
    ensures Contains(a + p + b, p)
  {
    var s := a + p + b;
    assert s[|a|..][..|p|] == p;
    assert StartsWith(s[|a|..], p);
  }

  lemma ContainsLeft(a: string, b: string)
    ensures Contains(a + b, a)
  {
    assert (a + b)[0..][..|a|] == a;
  }

  lemma ContainsRight(a: string, b: string)
    ensures Contains(a + b, b)
  {
    ContainsMiddle(a, b, []);
    assert a + b + [] == a + b;
  }

  /** A slice of a slice is a slice. */
  lemma ContainsTrans(s: string, t: string, p: string)
    requires Contains(s, t) && Contains(t, p)
    ensures Contains(s, p)
  {
    var i :| 0 <= i <= |s| && StartsWith(s[i..], t);
    var j :| 0 <= j <= |t| && StartsWith(t[j..], p);
    assert s[i + j..][..|p|] == t[j..][..|p|];
    assert StartsWith(s[i + j..], p);
  }

  /** Text built from five pieces holds its second and its fourth. */
  lemma ContainsSecondAndFourth(a: string, b: string, c: string, d: string, e: string)
    ensures Contains(a + b + c + d + e, b)
    ensures Contains(a + b + c + d + e, d)
  {
    ContainsLeft(a + b + c + d, e);
    ContainsRight(a + b + c, d);
    ContainsTrans(a + b + c + d + e, a + b + c + d, d);
    ContainsLeft(a + b + c, d);
    ContainsLeft(a + b, c);
    ContainsRight(a, b);
    ContainsTrans(a + b + c, a + b, b);
    ContainsTrans(a + b + c + d, a + b + c, b);
    ContainsTrans(a + b + c + d + e, a + b + c + d, b);
  }

  /** SQLite's `lower()`: only the ASCII capitals change. */
  function LowerChar(c: char): char {
    if 'A' <= c <= 'Z' then (c as int + 32) as char else c
  }

  function Lower(s: string): (r: string)
    ensures |r| == |s|
    ensures forall i :: 0 <= i < |s| ==> r[i] == LowerChar(s[i])
  {
    seq(|s|, i requires 0 <= i < |s| => LowerChar(s[i]))
  }

  lemma LowerAppend(a: string, b: string)
    ensures Lower(a + b) == Lower(a) + Lower(b)
  {
  }

  /** Python's `s[:n]`. */
  function Take<T>(s: seq<T>, n: nat): (r: seq<T>)
    ensures |r| == if |s| <= n then |s| else n
    ensures r == s[..|r|]
  {
    if |s| <= n then s else s[..n]
  }

  /** Python's `s[-n:]` for a positive `n`: the last `n` items, or all of them. */
  function Last<T>(s: seq<T>, n: nat): (r: seq<T>)
    ensures |r| == if |s| <= n then |s| else n
    ensures r == s[|s| - |r|..]
  {
    if |s| <= n then s else s[|s| - n..]
  }

}

=== FILE: wrappers.dfy ===
/** Option and Result, used for lookups that can miss and for handlers that
    answer with an HTTP error instead of a value. */
module Wrappers {

  datatype Option<+T> = None | Some(value: T) {
    function GetOr(default: T): T {
      match this
      case Some(v) => v
      case None => default
    }
  }

  datatype Result<+R, +E> = Success(value: R) | Failure(error: E)
}
